=== FILE: README.md ===
# epubook, modelled in Dafny

A model of the EPUB assembly core of *epubook*, a small Python library. The library writes an EPUB 2 book into a working directory and zips that directory into `<path>.epub`. The model covers:

- **Book metadata** (`EpubBase`, utils.py):
  - defaults, the title derived from the path, and the setters;
  - the cover suffix and media-type rule;
  - the author display rule;
  - the fixed documents and the heads of the three generated documents.
- **The chapter catalog**: the insertion-ordered `dict` from chapter id to title. It is modelled as a sequence of `(id, title)` pairs with unique ids.
- **The chapter formatter** (`EpubChapter`, epub.py): `from_html_text` and `from_text`.
- **The three generated package documents**. Each is first built as a structured sequence, then rendered line by line:
  - the OPF 2.0 manifest and spine (`write_opf`);
  - the NCX navigation map (`write_toc`);
  - the catalog page (`write_catalog`).
- **The `Epub` operations**, over a working directory modelled as a map from relative path to file content:
  - `create_chapter`, `chapter_from_file` and `add_cover`;
  - the document writes of `create`, in their order;
  - the entry plan of `compression`.

Modules, one per file:

| file | module | models |
|---|---|---|
| `results.dfy` | `Results` | `Option`, `Result` and the error cases. A `print` + `exit(1)` or an escaping `IndexError` becomes an `Err`. |
| `strings.dfy` | `Strings` | `str.split`, `str.join`, the tail of `os.path.split`, and decimal rendering of a number. |
| `catalog.dfy` | `Catalog` | The ordered dict: assignment, lookup, iteration order. |
| `epubbase.dfy` | `EpubBase` | The `EpubBase` record and the texts written from it. |
| `chapter.dfy` | `Chapter` | `EpubChapter`. |
| `documents.dfy` | `Documents` | Manifest, spine, navPoints and catalog links, and their rendering. |
| `archive.dfy` | `Archive` | The entry plan of `compression`. |
| `epub.dfy` | `Epub` | The `Epub` class over the working directory. |

Files are written in two modes:
- Mode `'w'` is a map update.
- Mode `'a'` creates the file if it is missing when it is opened, and each write appends to the current content.

Files the program reads from outside the working directory are a second map, supplied by the caller: the cover image and the source of `chapter_from_file`. The directory listing that `compression` walks is also supplied by the caller, as a sequence of `File(name)` and `Dir(name, children)` entries. `Epub.Describes` states when such a listing is what `os.listdir` reports for the modelled directory:
- names are unique and hold no `/`;
- every listed file and every listed `dir/child` exists;
- every top-level file is listed;
- every file directly inside a sub-directory is listed as a child of it.

The program validates no chapter id, never resumes a book from an existing directory, and never sorts chapter files numerically; the model does none of these either. Some of its behaviour is easy to mistake, and the model keeps it as written:
- The language setting is stored but never written: `dc:language` is the literal `zh-cn`.
- `chapter_from_file` copies its source to `{id}.xhtml`. All three documents reference `chapter_{id}.xhtml`, so after that call the manifest names a file that does not exist. The model keeps this behaviour, and `Epub.ChapterFromFileLeavesHrefDangling` proves the consequence.
- The cover suffix is the second `.`-separated field of the whole image name, not the text after the last `.`. So `a.b.png` gives `b`, and a relative path such as `./cover.png` gives `/cover`. The program then copies the image to `cover./cover` inside the working directory. That copy fails, because no directory `cover.` exists, and the model does not follow it there (see "Left out").

## Model

| member | source | states |
|---|---|---|
| Strings.Split | utils.py:7 | Python's `split` with a one-character separator: one more piece than there are separators, and no piece contains the separator. |
| Strings.SplitJoin | epub.py:154 | Splitting at `'\n'` loses nothing: joining the pieces back with the separator gives the original text. |
| Strings.AfterLast | utils.py:7 | The tail of `os.path.split`. It is a suffix of the path that contains no `/`, and it is preceded by a `/` unless it is the whole path. |
| Strings.JoinSnoc | utils.py:193 | Joining one more author adds exactly one `", "` and the new name. |
| Strings.DecimalRoundTrip | epub.py:121 | The decimal text written for a play order reads back as that number. |
| Strings.NatToStringInjective | epub.py:121 | Different play orders are written as different texts. |
| Catalog.Lookup | epub.py:9 | A lookup succeeds exactly for the ids the catalog holds. |
| Catalog.LookupAt | epub.py:111 | Iterating the items pairs each id with the title a lookup of it returns. |
| Catalog.Insert | epub.py:29 | `catalog[id] = title`. A new id is appended at the end. An existing id keeps its position and takes the new title. Every other entry is unchanged, and ids stay unique. |
| Catalog.LookupInsert | epub.py:29 | After an assignment, the assigned id looks up to the new title and every other id to its old one. |
| Catalog.InsertIsDictAssignment | epub.py:29 | On the unordered dict view, assignment is exactly a map update. |
| Catalog.InsertionOrder | epub.py:94 | A catalog built by any run of assignments lists each id once, in order of first assignment, however often ids are reassigned. |
| Catalog.LastAssignmentWins | epub.py:29 | In such a catalog, an id holds the title most recently assigned to it. |
| EpubBase.DefaultTitleIsFinalSegmentStem | utils.py:7 | The default title is the final `/` segment of the path, up to its first `.`. It contains neither `/` nor `.`. |
| EpubBase.New | utils.py:6-11 | Defaults: the title from the path, no authors, language `zh-cn`, introduction `No introduction`, no cover. |
| EpubBase.SetTitle | utils.py:23-24 | Sets the title and changes no other field. |
| EpubBase.AddAuthor | utils.py:26-27 | Appends the author at the end, keeps the earlier authors in order, and changes no other field. |
| EpubBase.SetLanguage | utils.py:29-30 | Sets the language and changes no other field. |
| EpubBase.AddIntro | utils.py:32-34 | Sets the introduction and changes no other field. |
| EpubBase.MediaTypeCollisions | utils.py:43-48 | Two different suffixes get the same media type only if they are `jpg`/`jpeg` or `svg`/`svg+xml`. |
| EpubBase.CoverSuffix | utils.py:40 | A name with a `.` yields the text after its first `.`, up to the second `.` or to the end of the name when there is no second `.`. A name without any `.` fails with `NoSuffix`. |
| EpubBase.AddCover | utils.py:36-48 | A missing image fails first with `NotFound`, then a name without `.` fails with `NoSuffix`. Otherwise only the cover is set: the suffix is the second field of the name, and the media type is derived from it. |
| EpubBase.AuthorLineAddAuthor | utils.py:193 | Adding an author extends the display text by `", "` and the name, or replaces `Unknow` when it is the first author. |
| EpubBase.NoAuthorsReadsAsUnknow | utils.py:118 | Page, NCX head and OPF head all use one author rule: with no authors, each reads exactly as if the sole author were named `Unknow`. |
| EpubBase.CoverMetaExactlyWhenCover | utils.py:206-207 | The OPF head holds the cover `<meta>` line if and only if a cover is set. |
| EpubBase.LanguageNeverWritten | utils.py:200 | Changing the language changes neither the OPF head, the NCX head nor the information page. |
| Chapter.TitleRecoverable | epub.py:130-141 | A title without `<` is read back from any document that starts with the chapter head built for it. |
| Chapter.FromHtmlText | epub.py:144-150 | A full document passes through unchanged. A fragment is wrapped in head and tail, and unwrapping gives the fragment back. |
| Chapter.ParagraphBlockIsLines | epub.py:155 | The joined paragraph block is one `<p>` line per piece, in order, empty pieces included. No pieces at all give one empty paragraph. |
| Chapter.FromTextParagraphs | epub.py:152-158 | A string gives one paragraph per line: the `'\n'` count plus one, in order, with nothing lost. A non-empty list gives one paragraph per item. An empty list gives one empty paragraph. |
| Chapter.FormattedTitleRecoverable | epub.py:30-34 | For a title without `<`, every chapter `create_chapter` formats, except a full document, gives its title back. |
| Documents.ManifestShape | epub.py:94-98 | The manifest has one chapter item per catalog entry in catalog order, then the cover item if and only if a cover is set, then the four fixed items. The cover item names `cover.<suffix>` and has media type `image/` followed by the recorded media type, which for a consistent book is the one derived from the suffix (`svg` gives `image/svg+xml`). |
| Documents.NavPointsFrom | epub.py:119-122 | The loop numbers the k-th remaining entry `idx + k`, with the entry's id, title and chapter file. |
| Documents.PlayOrderIsOneToN | epub.py:119-122 | Play orders are exactly 1..N in catalog order, with no gap and no repetition. Their decimal texts are pairwise different. |
| Documents.DocumentsAgree | epub.py:94-121 | Manifest, spine, navigation map and catalog page walk the same catalog in the same order. For the k-th entry they name the same id, chapter file and title. The spine starts with `page`, `catalog`. |
| Documents.RenderedOpfChapterLines | epub.py:94-100 | The rendered OPF body holds the chapter's `<item>` line at position k and its `<itemref>` line after the manifest and the two fixed itemrefs. |
| Documents.RenderedNcxChapterLines | epub.py:120-121 | The rendered NCX body holds one `<navPoint>` line per entry, with play order k+1. |
| Documents.RenderedCatalogChapterLines | epub.py:111-112 | The rendered catalog page holds one `<li>` line per entry, linking `chapter_{id}.xhtml` under its title. |
| Archive.RemoveFirstAt | epub.py:71 | In a listing with unique names, `list.remove` drops exactly the named entry and keeps the others in order. |
| Archive.OtherEntries | epub.py:72-77 | The loop deflates every remaining entry in order: a file under its name, a directory as its first child. It fails, naming the directory, if and only if some directory has no child. |
| Archive.Plan | epub.py:67-77 | Without `mimetype` the plan fails with `NotFound`. Otherwise `mimetype` comes first and stored, and every other entry is deflated. |
| Archive.PlanOfListing | epub.py:67-77 | For a listing with `mimetype`, the entries other than `mimetype` are the listing without it, in order. The plan succeeds if and only if none of them is an empty directory, and a failure names such a directory. A plan that succeeds has one entry per listed name, `mimetype` first and nowhere else, and the others in listing order under their archive names. |
| Epub.WriteLinesIsConcat | epub.py:94-105 | Writing lines one by one to an open file leaves its old content followed by the lines, and touches no other file. |
| Epub.AppendLinesIsConcat | epub.py:93-105 | Opening a file in `'a'` mode and writing lines leaves its old content, or nothing when it did not exist, followed by the lines. The open creates the file even when no line follows. No other file is touched. |
| Epub.WriteDocument | epub.py:83-93 | A head written in `'w'` mode and appended lines leave exactly head and lines, whatever the file held before. |
| Epub.CreateChapter | epub.py:11-36 | Records the title under the id by dict assignment, so a new id goes last and an existing one keeps its place, and writes the formatted chapter to `chapter_{id}.xhtml`. No other file changes and the metadata is untouched. |
| Epub.ChapterFromFile | epub.py:38-50 | A missing source fails with `NotFound` before the catalog changes. Otherwise the title is recorded by dict assignment, in catalog order as in `create_chapter`, and the source is copied verbatim to `{id}.xhtml`. |
| Epub.AddCover | utils.py:36-48 | A missing image fails with `NotFound`, then a name without `.` fails with `NoSuffix`. An existing image with a `.` always succeeds: the book becomes exactly what `EpubBase.AddCover` records, and the image is copied to `cover.<suffix>`, with the suffix the second field of the name. The catalog is untouched and no other file changes. |
| Epub.WriteOpf | epub.py:81-105 | `content.opf` ends up holding exactly the OPF head followed by the rendered manifest, spine and guide. |
| Epub.WriteCatalog | epub.py:107-113 | `catalog.xhtml` ends up holding exactly the catalog head followed by one link per entry and the closing lines. |
| Epub.WriteToc | epub.py:115-124 | `toc.ncx` ends up holding exactly the NCX head followed by one navPoint per entry and the closing lines. |
| Epub.WriteOutput | epub.py:58-64 | After the seven writes each of the seven files holds its document, whatever it held before, and every other file is kept. |
| Epub.WriteOutputIdempotent | epub.py:58-64 | Writing the same seven documents twice leaves what writing them once leaves. |
| Epub.WriteOutputDeterministic | epub.py:58-64 | What the seven files hold does not depend on the directory the writes were made in. |
| Epub.Generate | epub.py:58-64 | The stage-by-stage writes of `create` amount to writing the seven documents rendered from the current metadata and catalog. |
| Epub.GeneratedDocuments | epub.py:58-64 | After generation, each of the seven files holds exactly its rendering and no other file changes. |
| Epub.GenerateIdempotent | epub.py:58-64 | Re-running the generation reproduces the same directory. |
| Epub.GenerateDeterministic | epub.py:58-64 | The generated documents depend only on metadata and catalog. |
| Epub.NewConsistent | epub.py:7-9 | A new book lists no chapter and no cover, so every file the documents reference exists. |
| Epub.CreateChapterConsistent | epub.py:29-36 | `create_chapter` preserves this: every listed chapter has its `chapter_{id}.xhtml` file. |
| Epub.AddCoverConsistent | utils.py:40-48 | `add_cover` preserves this, and the recorded media type is the one derived from the recorded suffix. |
| Epub.ChapterFromFileLeavesHrefDangling | epub.py:50 | After `chapter_from_file`, the manifest lists `chapter_{id}.xhtml` but only `{id}.xhtml` exists, so the book is no longer consistent. |
| Epub.ManifestResolvesAfterWrite | epub.py:94-98 | For a consistent book, every manifest item names a file once the documents are written. |
| Epub.ManifestResolves | epub.py:94-98 | For a consistent book, every manifest item of the generated OPF names a file of the generated directory. |
| Epub.Compress | epub.py:67-79 | The package is `<path>.epub` with `mimetype` first and stored. It fails with `NotFound` when the listing has no `mimetype`. The working directory is removed exactly when `clean` is set. A path that ends in `/` puts `<path>.epub` inside the working directory, so with `clean` set the removal deletes the archive too. |
| Epub.CompressDescribed | epub.py:67-77 | A faithful listing of a directory holding `mimetype` never fails for want of it. It fails if and only if another sub-directory is empty, and the error names that directory. Otherwise the archive has `mimetype` first, stored and nowhere else, then every other listed name in listing order, deflated under its archive name. |
| Epub.CompressKeepsTopLevelFiles | epub.py:67-74 | A package made from a faithful listing holds every top-level file of the directory under its own name: `mimetype` stored, every other file deflated. |
| Epub.TopLevelFilesArchived | epub.py:72-74 | A package that archives a faithful listing in listing order holds every top-level file of the directory under its own name. |
| Epub.CreateAfterGenerate | epub.py:52-65 | After `create` has written its documents, compression cannot miss `mimetype`. It fails if and only if a sub-directory is empty, naming it. Otherwise it archives every listed name once in listing order after `mimetype`, which is stored, and every top-level file of the generated directory is among the entries. |
| Epub.SubdirectoryListed | epub.py:76 | A file directly inside a sub-directory of the modelled directory is reported by a faithful listing as a child of a listed `Dir` of that name. |
| Epub.PackageNotFailedOn | epub.py:72-77 | A sub-directory with a child is never the empty directory the archive fails on. |
| Epub.PackageKeepsSubdirectory | epub.py:75-77 | A package holds the first child of every non-empty listed sub-directory, as `dir/child`, deflated. |
| Epub.PackageSucceedsUnlessOtherEmpty | epub.py:72-77 | When every listed sub-directory except one known to hold a child is non-empty, the archive succeeds. |
| Epub.CompressKeepsSubdirectory | epub.py:67-77 | For a file `d/c` of a faithfully listed directory, the listing reports `d` with child `c`. Compression never fails on `d`. It succeeds when no other listed sub-directory is empty. A package then holds `d/<first child>`, a file of the directory. |
| Epub.CompressKeepsMetaInf | epub.py:67-77 | The same for `META-INF`, in any directory that holds `mimetype` and `META-INF/container.xml`. |
| Epub.CreateKeepsMetaInf | epub.py:58-77 | `create` never fails on `META-INF`: after generation the listing reports it with the child `container.xml`. Compression fails only on another empty sub-directory. A package holds `META-INF/<first child>`, and that path is a file of the generated directory; when nothing else lies in `META-INF`, it can only be `META-INF/container.xml`. |

## Left out

- `test.py`: an HTTP scraper and driver script. It is network and I/O plumbing with no assembly logic.
- Real filesystem effects:
  - creating the working directory and `META-INF` (utils.py:14-18);
  - `shutil.copy`;
  - `shutil.rmtree`, which appears only as the `removesWorkdir` flag of the package;
  - file encodings.
  Writes are map updates on the modelled working directory.
- ZIP and DEFLATE bytes: only the entry names, order and compression method are modelled.
- Process termination: `print` followed by `exit(1)` is an `Err` result, and an operation that fails leaves no trace in the model. The source can leave partial states, which are not modelled:
  - `add_cover` records the suffix and the cover path (utils.py:40-41) before the copy (utils.py:42), which can raise;
  - `create_chapter` assigns `catalog[id]` (epub.py:29) before the chapter is formatted and written (epub.py:30-36);
  - `chapter_from_file` assigns `catalog[id]` (epub.py:49) before the copy (epub.py:50);
  - compression has already opened the archive file (epub.py:69) when it fails, and has already written `mimetype` and every entry before the empty sub-directory into it (epub.py:70-77).
- `create_chapter` with `html=True` and a list argument raises a Python `TypeError`. The `Content` datatype cannot express that call.
- A directory entry named `mimetype` is not distinguished from a file of that name. `zipfile` would archive it as a directory entry.
- The contents of `stylesheet.css` and `META-INF/container.xml` are constant texts with no logic; nothing is proved about them beyond where they are written.
- The demonstration under `__main__` in utils.py calls `write_page` with arguments it does not accept. It is not modelled.
- HTML and XML escaping: the program performs none, and neither does the model.
- `Epub.Create` states no contract of its own. It is the pairing of `Epub.Generate` with `Epub.Compress`, whose contracts and `Epub.CreateAfterGenerate` carry the properties of `create`.
- Chapter.TitleRecoverable: requires a title free of `<`. A title holding `<` would be cut at that character when read back, because nothing is escaped.
- Chapter.FormattedTitleRecoverable: requires a title free of `<`, for the same reason as `Chapter.TitleRecoverable`.
- Nested sub-directories: a child of a sub-directory that is itself a directory cannot be described, because `Epub.Describes` requires every listed `dir/child` to be a file of the modelled directory. `zipfile` would archive such a child as the directory entry `dir/child/`. Files two or more levels deep are not constrained by `Epub.Describes`.
- Paths are POSIX paths. `os.path.split` (utils.py:7) and `os.path.join` (epub.py:77) use the platform's separator; `Strings.AfterLast` and `Archive.ArchiveName` use `/`.
- Epub.CreateChapter: an id holding `/` makes the program write `chapter_<id>.xhtml` into a sub-directory that does not exist, and `open` raises (epub.py:35). The working directory is a flat map of paths, so the model writes the file and succeeds.
- Epub.ChapterFromFile: likewise, an id holding `/` makes `shutil.copy` to `<id>.xhtml` raise (epub.py:50); the model succeeds.
- Epub.AddCover: likewise, a suffix holding `/` (from a name such as `./cover.png`) makes `shutil.copy` to `cover.<suffix>` raise (utils.py:42); the model records the cover and writes the file.

=== FILE: archive.dfy ===
/** The entry plan of `Epub.compression` (epub.py): which archive entries the
    ZIP file receives, under which names, in which order, and with which
    compression method. The ZIP and DEFLATE encodings themselves are not
    modelled. */
module Archive {
  import opened Results

  /** One name of a directory listing: a plain file, or a sub-directory
      together with the names of its own children in listing order. */
  datatype Entry = File(name: string) | Dir(name: string, children: seq<string>)

  /** The two ZIP compression methods the program uses. */
  datatype Compression = Stored | Deflated

  datatype ArchiveEntry = ArchiveEntry(name: string, compression: Compression)

  const MimetypeName: string := "mimetype"

  /** A directory listing never names the same thing twice. */
  predicate UniqueNames(listing: seq<Entry>)
  {
    forall i, j :: 0 <= i < j < |listing| ==> listing[i].name != listing[j].name
  }

  /** `list.remove(name)`: drops the first entry with that name. */
  function RemoveFirst(listing: seq<Entry>, name: string): seq<Entry>
  {
    if listing == [] then []
    else if listing[0].name == name then listing[1..]
    else [listing[0]] + RemoveFirst(listing[1..], name)
  }

  /** In a listing with unique names, removing a name drops exactly the
      entry that carries it and keeps the others in order. */
  lemma {:induction false} RemoveFirstAt(listing: seq<Entry>, i: nat)
    requires UniqueNames(listing) && i < |listing|
    ensures RemoveFirst(listing, listing[i].name) == listing[..i] + listing[i + 1..]
  {
    if i == 0 {
      assert listing[..0] + listing[1..] == listing[1..];
    } else {
      var tail := listing[1..];
      assert listing[0].name != listing[i].name;
      assert UniqueNames(tail) by {
        forall a, b | 0 <= a < b < |tail|
          ensures tail[a].name != tail[b].name
        {
          assert tail[a] == listing[a + 1] && tail[b] == listing[b + 1];
        }
      }
      assert tail[i - 1] == listing[i];
      RemoveFirstAt(tail, i - 1);
      assert listing[..i] == [listing[0]] + tail[..i - 1];
      assert listing[i + 1..] == tail[i..];
      assert [listing[0]] + (tail[..i - 1] + tail[i..]) == listing[..i] + listing[i + 1..];
    }
  }

  /** The archive name an entry is written under: a file under its own name,
      a directory as its first child, `dir/child`. */
  function ArchiveName(e: Entry): string
    requires e.Dir? ==> e.children != []
  {
    match e
    case File(n) => n
    case Dir(d, cs) => d + "/" + cs[0]
  }

  /** The loop of `compression` over the entries other than `mimetype`:
      every entry is deflated, in listing order; a directory without any
      child stops the loop with an error. */
  function OtherEntries(rest: seq<Entry>): (r: Result<seq<ArchiveEntry>>)
    ensures r.Ok? <==> forall i :: 0 <= i < |rest| && rest[i].Dir? ==> rest[i].children != []
    ensures r.Ok? ==> (
      && |r.value| == |rest|
      && forall i :: 0 <= i < |rest| ==> r.value[i] == ArchiveEntry(ArchiveName(rest[i]), Deflated))
    ensures r.Err? ==> exists i :: (
      && 0 <= i < |rest| && rest[i].Dir? && rest[i].children == []
      && r.error == EmptyDirectory(rest[i].name))
  {
    if rest == [] then Ok([])
    else
      var e := rest[0];
      if e.Dir? && e.children == [] then Err(EmptyDirectory(e.name))
      else
        match OtherEntries(rest[1..])
        case Err(err) => Err(err)
        case Ok(tail) => Ok([ArchiveEntry(ArchiveName(e), Deflated)] + tail)
  }

  predicate Listed(listing: seq<Entry>, name: string)
  {
    exists i :: 0 <= i < |listing| && listing[i].name == name
  }

  /** `compression`: `mimetype` first and stored, then every other entry of
      the listing, deflated. A listing without `mimetype` fails, as does
      one with an empty sub-directory. */
  function Plan(listing: seq<Entry>): (r: Result<seq<ArchiveEntry>>)
    ensures !Listed(listing, MimetypeName) ==> r == Err(NotFound(MimetypeName))
    ensures r.Ok? ==> r.value != [] && r.value[0] == ArchiveEntry(MimetypeName, Stored)
    ensures r.Ok? ==> forall k :: 1 <= k < |r.value| ==> r.value[k].compression == Deflated
  {
    if !Listed(listing, MimetypeName) then Err(NotFound(MimetypeName))
    else
      match OtherEntries(RemoveFirst(listing, MimetypeName))
      case Err(err) => Err(err)
      case Ok(tail) => Ok([ArchiveEntry(MimetypeName, Stored)] + tail)
  }

  /** For a real listing (unique names) that holds `mimetype` at position
      `m`: the entries other than `mimetype` are the listing without it, in
      order; the plan succeeds exactly when none of them is an empty
      directory, and a failure names such a directory; a plan that succeeds
      has one entry per listed name, `mimetype` first, stored, and nowhere
      else, followed by the other entries in listing order, each deflated
      under its archive name. */
  lemma PlanOfListing(listing: seq<Entry>, m: nat)
    requires UniqueNames(listing) && m < |listing| && listing[m].name == MimetypeName
    ensures RemoveFirst(listing, MimetypeName) == listing[..m] + listing[m + 1..]
    ensures var others := listing[..m] + listing[m + 1..];
      var r := Plan(listing);
      && (r.Ok? <==> forall i :: 0 <= i < |others| && others[i].Dir? ==> others[i].children != [])
      && (r.Err? ==> exists i :: (
            && 0 <= i < |others| && others[i].Dir? && others[i].children == []
            && r.error == EmptyDirectory(others[i].name)))
      && (r.Ok? ==>
            && |r.value| == |listing|
            && r.value[0] == ArchiveEntry(MimetypeName, Stored)
            && (forall k :: 1 <= k < |r.value| ==>
                  r.value[k] == ArchiveEntry(ArchiveName(others[k - 1]), Deflated))
            && (forall k :: 1 <= k < |r.value| ==> r.value[k].name != MimetypeName))
  {
    var others := listing[..m] + listing[m + 1..];
    RemoveFirstAt(listing, m);
    assert Listed(listing, MimetypeName);
    var r := Plan(listing);
    if r.Ok? {
      forall k | 1 <= k < |r.value|
        ensures r.value[k].name != MimetypeName
      {
        var e := others[k - 1];
        if e.File? {
          var j := if k - 1 < m then k - 1 else k;
          assert listing[j] == e;
        } else {
          assert '/' in ArchiveName(e) by {
            assert ArchiveName(e)[|e.name|] == '/';
          }
          assert '/' !in MimetypeName;
        }
      }
    }
  }
}

=== FILE: catalog.dfy ===
/** The chapter catalog: the `catalog` dict of the `Epub` class, which maps a
    chapter id to its title and iterates in insertion order. It is the one
    structure that the package manifest, the navigation map and the catalog
    page all walk, so its order is the reading order of the book. */
module Catalog {
  import opened Results

  type Id = string
  type Title = string

  /** The ids of a run of (id, title) pairs, in order. */
  function Ids(c: seq<(Id, Title)>): seq<Id>
  {
    seq(|c|, i requires 0 <= i < |c| => c[i].0)
  }

  /** A dict never holds the same key twice. */
  predicate UniqueIds(c: seq<(Id, Title)>)
  {
    forall i, j :: 0 <= i < j < |c| ==> c[i].0 != c[j].0
  }

  /** The catalog as an ordered association list with unique keys. */
  type Catalog = c: seq<(Id, Title)> | UniqueIds(c) witness []

  /** `catalog.get(id)`. */
  function Lookup(c: Catalog, id: Id): (r: Option<Title>)
    ensures r.Some? <==> id in Ids(c)
  {
    if c == [] then None
    else
      assert Ids(c) == [c[0].0] + Ids(c[1..]);
      if c[0].0 == id then Some(c[0].1) else Lookup(c[1..], id)
  }

  /** Every entry is what a lookup of its own id returns. */
  lemma {:induction false} LookupAt(c: Catalog, i: nat)
    requires i < |c|
    ensures Lookup(c, c[i].0) == Some(c[i].1)
  {
    if i > 0 {
      LookupAt(c[1..], i - 1);
    }
  }

  /** `catalog[id] = title`: a new id is appended at the end; an id already
      present keeps its position and takes the new title; every other entry
      is left as it was. */
  function Insert(c: Catalog, id: Id, title: Title): (r: Catalog)
    ensures id !in Ids(c) ==> r == c + [(id, title)]
    ensures id in Ids(c) ==> |r| == |c|
    ensures id in Ids(c) ==>
      forall i :: 0 <= i < |c| ==> r[i] == (if c[i].0 == id then (id, title) else c[i])
  {
    if c == [] then [(id, title)]
    else
      assert Ids(c) == [c[0].0] + Ids(c[1..]);
      if c[0].0 == id then
        assert id !in Ids(c[1..]);
        [(id, title)] + c[1..]
      else
        var rest := Insert(c[1..], id, title);
        assert Ids(rest) == (if id in Ids(c[1..]) then Ids(c[1..]) else Ids(c[1..]) + [id]);
        [c[0]] + rest
  }

  /** Looking up after an assignment: the assigned id has the new title,
      every other id what it had before. */
  lemma {:induction false} LookupInsert(c: Catalog, id: Id, title: Title, k: Id)
    ensures Lookup(Insert(c, id, title), k) == if k == id then Some(title) else Lookup(c, k)
  {
    if c != [] && c[0].0 != id {
      LookupInsert(c[1..], id, title, k);
      assert Insert(c, id, title) == [c[0]] + Insert(c[1..], id, title);
    }
  }

  /** The dict view of a catalog: what the dict holds, forgetting order. */
  function AsMap(c: Catalog): map<Id, Title>
  {
    map k | k in Ids(c) :: Lookup(c, k).value
  }

  /** `Insert` is dict assignment: on the dict view it is a map update. */
  lemma InsertIsDictAssignment(c: Catalog, id: Id, title: Title)
    ensures AsMap(Insert(c, id, title)) == AsMap(c)[id := title]
  {
    var r := Insert(c, id, title);
    forall k
      ensures k in AsMap(r) <==> k in AsMap(c)[id := title]
      ensures k in AsMap(r) ==> AsMap(r)[k] == AsMap(c)[id := title][k]
    {
      LookupInsert(c, id, title, k);
    }
  }

  /** The catalog left by a run of `catalog[id] = title` assignments,
      starting from the empty dict. */
  function FromInsertions(ops: seq<(Id, Title)>): Catalog
  {
    if ops == [] then []
    else Insert(FromInsertions(ops[..|ops| - 1]), ops[|ops| - 1].0, ops[|ops| - 1].1)
  }

  /** The ids in the order in which each first appears. */
  function FirstOccurrences(xs: seq<Id>): seq<Id>
  {
    if xs == [] then []
    else
      var p := FirstOccurrences(xs[..|xs| - 1]);
      if xs[|xs| - 1] in p then p else p + [xs[|xs| - 1]]
  }

  /** Iteration order is insertion order: the catalog lists every assigned id
      once, at the place of its first assignment, whatever re-assignments
      followed. */
  lemma {:induction false} InsertionOrder(ops: seq<(Id, Title)>)
    ensures Ids(FromInsertions(ops)) == FirstOccurrences(Ids(ops))
  {
    if ops != [] {
      var n := |ops|;
      assert Ids(ops)[..n - 1] == Ids(ops[..n - 1]);
      InsertionOrder(ops[..n - 1]);
    }
  }

  /** The title a catalog built by assignments holds for an id is the one
      most recently assigned to it. */
  lemma {:induction false} LastAssignmentWins(ops: seq<(Id, Title)>, i: nat)
    requires i < |ops|
    requires forall j :: i < j < |ops| ==> ops[j].0 != ops[i].0
    ensures Lookup(FromInsertions(ops), ops[i].0) == Some(ops[i].1)
  {
    var n := |ops|;
    var init := ops[..n - 1];
    var last := ops[n - 1];
    var c: Catalog := FromInsertions(init);
    if i < n - 1 {
      forall j | i < j < |init|
        ensures init[j].0 != init[i].0
      {
        assert init[j] == ops[j];
      }
      LastAssignmentWins(init, i);
      assert Lookup(c, ops[i].0) == Some(ops[i].1);
    }
    LookupInsert(c, last.0, last.1, ops[i].0);
  }
}

=== FILE: chapter.dfy ===
/** The chapter formatter, `EpubChapter` (epub.py): wraps chapter content in
    the standard XHTML head and tail, or passes a complete document through. */
module Chapter {
  import opened Results
  import opened Strings
  import EpubBase

  /** Everything of a chapter head before the title text. */
  const TitlePrefix: string := EpubBase.XhtmlOpening + "    <title>"

  /** The chapter head: the title appears in `<title>` and again in the
      `<h2>` heading. Nothing is escaped. */
  function Head(title: string): string
  {
    TitlePrefix + title + AfterTitle(title)
  }

  /** The rest of the chapter head after the title text. */
  function AfterTitle(title: string): string
  {
    "</title>\n"
    + EpubBase.StyledBodyOpening
    + "    <h2><span style=\"border-bottom:1px solid\">" + title + "</span></h2>\n"
  }

  /** The chapter tail: a page-break marker and the closing tags. */
  const Tail: string := "    <div class=\"mbppagebreak\"></div>\n</body>\n</html>"

  /** Reads the title back out of a chapter: the text after `<title>` up to
      the next '<'. `None` when the document does not open like a chapter. */
  function ExtractTitle(doc: string): Option<string>
  {
    if TitlePrefix <= doc then Some(TakeUntil(doc[|TitlePrefix|..], '<')) else None
  }

  /** The content between the head for `title` and the tail, when `doc` is
      wrapped that way. */
  function Unwrap(doc: string, title: string): Option<string>
  {
    var h := Head(title);
    if |h| + |Tail| <= |doc| && doc[..|h|] == h && doc[|doc| - |Tail|..] == Tail
    then Some(doc[|h|..|doc| - |Tail|])
    else None
  }

  /** After any prefix, a title free of '<' followed by text opening with
      '<' is read back up to that '<', whatever comes after. */
  lemma StopsAfterTitle(prefix: string, title: string, after: string, doc: string)
    requires '<' !in title && after != [] && after[0] == '<'
    requires prefix + title + after <= doc
    ensures prefix <= doc && TakeUntil(doc[|prefix|..], '<') == title
  {
    var n := |prefix| + |title|;
    assert doc[n] == (prefix + title + after)[n] == '<';
    assert doc[|prefix|..] == title + doc[n..];
    TakeUntilStops(title, doc[n..], '<');
  }

  /** A string starts any concatenation it opens. */
  lemma PrefixOfConcat(a: string, b: string, c: string)
    ensures a <= a + b + c
  {
    assert (a + b + c)[..|a|] == a;
  }

  /** A title free of '<' is recovered from any document that starts with
      the head built for it. */
  lemma TitleRecoverable(title: string, doc: string)
    requires '<' !in title && Head(title) <= doc
    ensures ExtractTitle(doc) == Some(title)
  {
    assert AfterTitle(title)[0] == '<';
    StopsAfterTitle(TitlePrefix, title, AfterTitle(title), doc);
  }

  /** `from_html_text`: a full document passes through unchanged; a fragment
      is wrapped in the head and tail, from which it can be taken back. */
  function FromHtmlText(title: string, html: string, full: bool): (r: string)
    ensures full ==> r == html
    ensures !full ==> Unwrap(r, title) == Some(html)
  {
    if full then html
    else
      var r := Head(title) + html + Tail;
      assert r[..|Head(title)|] == Head(title);
      assert r[|r| - |Tail|..] == Tail;
      assert r[|Head(title)|..|r| - |Tail|] == html;
      r
  }

  /** The argument of `from_text`: one string, or a list of strings. */
  datatype TextArg = Str(text: string) | List(items: seq<string>)

  /** The pieces `from_text` turns into paragraphs: a string is split at
      every '\n'; a list is taken as it is. */
  function Pieces(arg: TextArg): seq<string>
  {
    match arg
    case Str(s) => Split(s, '\n')
    case List(items) => items
  }

  const ParagraphSeparator: string := "</p>\n    <p>"

  /** The paragraph block of `from_text`. */
  function ParagraphBlock(pieces: seq<string>): string
  {
    "    <p>" + Join(ParagraphSeparator, pieces) + "</p>\n"
  }

  /** One paragraph line per piece. */
  function ParagraphLines(pieces: seq<string>): seq<string>
  {
    seq(|pieces|, i requires 0 <= i < |pieces| => "    <p>" + pieces[i] + "</p>\n")
  }

  /** The joined paragraph block is one `<p>` line per piece, in order, empty
      pieces included; no pieces at all still give one empty paragraph. */
  lemma {:induction false} ParagraphBlockIsLines(pieces: seq<string>)
    ensures ParagraphBlock(pieces)
      == Concat(ParagraphLines(if pieces == [] then [""] else pieces))
  {
    if |pieces| == 1 {
      assert ParagraphLines(pieces) == ["    <p>" + pieces[0] + "</p>\n"];
    } else if |pieces| > 1 {
      var rest := pieces[1..];
      ParagraphBlockIsLines(rest);
      assert ParagraphLines(pieces)[1..] == ParagraphLines(rest);
      calc {
        ParagraphBlock(pieces);
        "    <p>" + (pieces[0] + ParagraphSeparator + Join(ParagraphSeparator, rest)) + "</p>\n";
        { assert ParagraphSeparator == "</p>\n" + "    <p>"; }
        ("    <p>" + pieces[0] + "</p>\n") + ParagraphBlock(rest);
      }
    } else {
      var lines := ParagraphLines([""]);
      assert lines == ["    <p>" + "" + "</p>\n"];
      assert Concat(lines) == lines[0] + Concat([]);
    }
  }

  /** `from_text`: the head, one paragraph per piece, the tail. */
  function FromText(title: string, arg: TextArg): string
  {
    Head(title) + ParagraphBlock(Pieces(arg)) + Tail
  }

  /** The paragraphs of `from_text`: a string gives one paragraph per line
      (one more than its '\n' count), the lines in order and nothing lost; a
      list gives one paragraph per item, and an empty list one empty
      paragraph. */
  lemma FromTextParagraphs(title: string, arg: TextArg)
    ensures var ps := if Pieces(arg) == [] then [""] else Pieces(arg);
      && FromText(title, arg) == Head(title) + Concat(ParagraphLines(ps)) + Tail
      && (arg.Str? ==> |ps| == multiset(arg.text)['\n'] + 1 && Join("\n", ps) == arg.text)
      && (arg.List? && arg.items != [] ==> ps == arg.items)
      && (arg.List? && arg.items == [] ==> ps == [""])
  {
    ParagraphBlockIsLines(Pieces(arg));
    if arg.Str? {
      SplitJoin(arg.text, '\n');
    }
  }

  /** How `create_chapter` is told to treat its content. */
  datatype Content =
    | Html(markup: string, full: bool)  // html=True, with the `full` flag
    | Text(arg: TextArg)                // html=False

  /** The chapter document `create_chapter` writes. */
  function Format(title: string, content: Content): string
  {
    match content
    case Html(markup, full) => FromHtmlText(title, markup, full)
    case Text(arg) => FromText(title, arg)
  }

  /** Every formatted chapter that is not a full document gives its title
      back, provided the title holds no '<'. */
  lemma FormattedTitleRecoverable(title: string, content: Content)
    requires '<' !in title
    requires !(content.Html? && content.full)
    ensures ExtractTitle(Format(title, content)) == Some(title)
  {
    var body := match content
      case Html(markup, _) => markup
      case Text(arg) => ParagraphBlock(Pieces(arg));
    PrefixOfConcat(Head(title), body, Tail);
    TitleRecoverable(title, Format(title, content));
  }
}

=== FILE: documents.dfy ===
/** The package documents that `Epub` writes from its catalog (epub.py):
    the OPF manifest and spine (`write_opf`), the NCX navigation map
    (`write_toc`) and the catalog page (`write_catalog`). Each document is
    first built as a structured sequence (items, itemrefs, navPoints, links)
    and then rendered line by line; the rendered text is the head written
    by the matching `EpubBase` writer followed by the concatenated lines.
    The OPF is an OPF 2.0 package document and the NCX a DAISY NCX, as
    EPUB 2 uses them. */
module Documents {
  import opened Results
  import opened Strings
  import opened Catalog
  import EpubBase

  /** The file a chapter is expected under. */
  function ChapterHref(id: Id): string
  {
    "chapter_" + id + ".xhtml"
  }

  const XhtmlMediaType: string := "application/xhtml+xml"

  // ---------------------------------------------------------------------
  // OPF: manifest and spine

  /** The order in which an `<item>` line writes its three attributes; the
      program uses three different orders. */
  datatype Layout = HrefIdType | IdHrefType | HrefTypeId

  datatype Item = Item(id: string, href: string, mediaType: string, layout: Layout)

  function ChapterItem(id: Id): Item
  {
    Item(id, ChapterHref(id), XhtmlMediaType, HrefIdType)
  }

  /** The cover item, present only when a cover is set. */
  function CoverItems(b: EpubBase.Book): seq<Item>
  {
    match b.cover
    case None => []
    case Some(c) =>
      [Item("cover-image", EpubBase.CoverFileName(c.suffix), "image/" + c.mediaType, IdHrefType)]
  }

  /** The items for the non-chapter documents, written after the chapters. */
  const FixedItems: seq<Item> := [
    Item("catalog", "catalog.xhtml", XhtmlMediaType, HrefIdType),
    Item("css", "stylesheet.css", "text/css", HrefIdType),
    Item("page", "page.xhtml", XhtmlMediaType, HrefIdType),
    Item("ncx", "toc.ncx", "application/x-dtbncx+xml", HrefTypeId)
  ]

  function ChapterItems(cat: Catalog): seq<Item>
  {
    seq(|cat|, i requires 0 <= i < |cat| => ChapterItem(cat[i].0))
  }

  /** The manifest: one item per catalog id in catalog order, then the cover
      item if any, then the fixed items. */
  function Manifest(b: EpubBase.Book, cat: Catalog): seq<Item>
  {
    ChapterItems(cat) + CoverItems(b) + FixedItems
  }

  /** The spine: the information page, the catalog page, then the chapters
      in catalog order. */
  function Spine(cat: Catalog): seq<string>
  {
    ["page", "catalog"] + Ids(cat)
  }

  /** The manifest starts with the chapters in catalog order, holds a cover
      item exactly when a cover is set, and ends with the four fixed items. */
  lemma ManifestShape(b: EpubBase.Book, cat: Catalog)
    ensures var m := Manifest(b, cat);
      && |m| == |cat| + (if b.cover.Some? then 1 else 0) + 4
      && (forall k :: 0 <= k < |cat| ==> m[k] == ChapterItem(cat[k].0))
      && (b.cover.Some? <==> m[|cat|].id == "cover-image" && m[|cat|].layout == IdHrefType)
      && (b.cover.Some? ==> m[|cat|].href == EpubBase.CoverFileName(b.cover.value.suffix))
      && (b.cover.Some? ==> m[|cat|].mediaType == "image/" + b.cover.value.mediaType)
      && (b.cover.Some? && EpubBase.CoverConsistent(b) ==>
            m[|cat|].mediaType == "image/" + EpubBase.MediaType(b.cover.value.suffix))
      && m[|m| - 4..] == FixedItems
  {
    var m := Manifest(b, cat);
    assert m[|m| - 4..] == FixedItems;
    if b.cover.None? {
      assert m[|cat|] == FixedItems[0];
    }
  }

  function ItemLine(it: Item): string
  {
    match it.layout
    case HrefIdType =>
      "    <item href=\"" + it.href + "\" id=\"" + it.id + "\" media-type=\"" + it.mediaType + "\"/>\n"
    case IdHrefType =>
      "    <item id=\"" + it.id + "\" href=\"" + it.href + "\" media-type=\"" + it.mediaType + "\"/>\n"
    case HrefTypeId =>
      "    <item href=\"" + it.href + "\" media-type=\"" + it.mediaType + "\" id=\"" + it.id + "\"/>\n"
  }

  function ItemrefLine(idref: string): string
  {
    "    <itemref idref=\"" + idref + "\"/>\n"
  }

  function ManifestLines(m: seq<Item>): seq<string>
  {
    seq(|m|, i requires 0 <= i < |m| => ItemLine(m[i]))
  }

  function SpineLines(s: seq<string>): seq<string>
  {
    seq(|s|, i requires 0 <= i < |s| => ItemrefLine(s[i]))
  }

  /** The line that closes the manifest and opens the spine. */
  const SpineOpening: string := "</manifest>\n\n<spine toc=\"ncx\">\n"

  /** The lines after the spine: its close, the guide naming the catalog
      page as table of contents, and the package close. */
  const OpfClosingLines: seq<string> := ["</spine>\n", "<guide>\n",
    "    <reference href=\"catalog.xhtml\" type=\"toc\" title=\"目录\"/>\n",
    "</guide>\n", "</package>\n"]

  /** What `write_opf` appends after the head. */
  function OpfBodyLines(b: EpubBase.Book, cat: Catalog): seq<string>
  {
    ManifestLines(Manifest(b, cat)) + [SpineOpening] + SpineLines(Spine(cat)) + OpfClosingLines
  }

  /** The complete `content.opf`. */
  function OpfText(b: EpubBase.Book, cat: Catalog): string
  {
    EpubBase.OpfHead(b) + Concat(OpfBodyLines(b, cat))
  }

  // ---------------------------------------------------------------------
  // NCX: the navigation map

  datatype NavPoint = NavPoint(id: Id, playOrder: nat, text: Title, src: string)

  /** The navPoints for the remaining entries, numbered on from `idx`, as
      the loop of `write_toc` numbers them. */
  function NavPointsFrom(entries: Catalog, idx: nat): (nav: seq<NavPoint>)
    ensures |nav| == |entries|
    ensures forall k :: 0 <= k < |entries| ==>
      nav[k] == NavPoint(entries[k].0, idx + k, entries[k].1, ChapterHref(entries[k].0))
  {
    if entries == [] then []
    else ([NavPoint(entries[0].0, idx, entries[0].1, ChapterHref(entries[0].0))]
          + NavPointsFrom(entries[1..], idx + 1))
  }

  /** The navigation map: numbering starts at 1. */
  function NavMap(cat: Catalog): seq<NavPoint>
  {
    NavPointsFrom(cat, 1)
  }

  /** The play orders are exactly 1..N, in catalog order, with no gap and no
      repetition, and even their decimal texts are pairwise different. */
  lemma PlayOrderIsOneToN(cat: Catalog)
    ensures var nav := NavMap(cat);
      && |nav| == |cat|
      && (forall k :: 0 <= k < |nav| ==> nav[k].playOrder == k + 1)
      && (forall k :: 0 <= k < |nav| ==> 1 <= nav[k].playOrder <= |cat|)
      && (forall i, j :: 0 <= i < j < |nav| ==>
            NatToString(nav[i].playOrder) != NatToString(nav[j].playOrder))
  {
    var nav := NavMap(cat);
    forall i, j | 0 <= i < j < |nav|
      ensures NatToString(nav[i].playOrder) != NatToString(nav[j].playOrder)
    {
      NatToStringInjective(nav[i].playOrder, nav[j].playOrder);
    }
  }

  function NavPointLine(np: NavPoint): string
  {
    "<navPoint id=\"" + np.id + "\" playOrder=\"" + NatToString(np.playOrder)
    + "\"><navLabel><text>" + np.text + "</text></navLabel><content src=\""
    + np.src + "\"/></navPoint>\n"
  }

  /** What `write_toc` appends after the head. */
  function NcxBodyLines(cat: Catalog): seq<string>
  {
    var nav := NavMap(cat);
    seq(|nav|, i requires 0 <= i < |nav| => NavPointLine(nav[i])) + ["</navMap>\n", "</ncx>"]
  }

  /** The complete `toc.ncx`. */
  function NcxText(b: EpubBase.Book, cat: Catalog): string
  {
    EpubBase.NcxHead(b) + Concat(NcxBodyLines(cat))
  }

  // ---------------------------------------------------------------------
  // The catalog page

  datatype Link = Link(href: string, title: Title)

  function CatalogLinks(cat: Catalog): seq<Link>
  {
    seq(|cat|, i requires 0 <= i < |cat| => Link(ChapterHref(cat[i].0), cat[i].1))
  }

  function LinkLine(l: Link): string
  {
    "        <li class=\"catalog\"><a href=\"" + l.href + "\">" + l.title + "</a></li>\n"
  }

  /** What `write_catalog` appends after the head. */
  function CatalogBodyLines(cat: Catalog): seq<string>
  {
    var links := CatalogLinks(cat);
    seq(|links|, i requires 0 <= i < |links| => LinkLine(links[i]))
    + ["    </ul>\n    <div class=\"mbppagebreak\"></div>\n</body>\n</html>"]
  }

  /** The complete `catalog.xhtml`. */
  function CatalogText(cat: Catalog): string
  {
    EpubBase.CatalogHead + Concat(CatalogBodyLines(cat))
  }

  // ---------------------------------------------------------------------
  // Cross-document consistency

  /** The three documents walk the same catalog in the same order: for the
      k-th entry, the k-th manifest item, the (k+3)-th spine itemref, the
      k-th navPoint and the k-th catalog link all name the same id, the
      same chapter file and the same title, and the navPoint is played k+1-th. */
  lemma DocumentsAgree(b: EpubBase.Book, cat: Catalog)
    ensures var m := Manifest(b, cat);
      var s := Spine(cat);
      var nav := NavMap(cat);
      var links := CatalogLinks(cat);
      && |s| == |cat| + 2 && |nav| == |cat| && |links| == |cat| && |m| >= |cat|
      && s[..2] == ["page", "catalog"]
      && forall k :: 0 <= k < |cat| ==>
           && m[k].id == s[k + 2] == nav[k].id == cat[k].0
           && m[k].href == nav[k].src == links[k].href == ChapterHref(cat[k].0)
           && nav[k].text == links[k].title == cat[k].1
           && nav[k].playOrder == k + 1
  {
    ManifestShape(b, cat);
  }

  /** The rendered OPF has one manifest line and one spine line per catalog
      entry, in catalog order: the chapter's item and its itemref. */
  lemma RenderedOpfChapterLines(b: EpubBase.Book, cat: Catalog)
    ensures var opf := OpfBodyLines(b, cat);
      var n := |Manifest(b, cat)|;
      && |opf| == n + 1 + (|cat| + 2) + |OpfClosingLines|
      && forall k :: 0 <= k < |cat| ==>
           && opf[k] == ItemLine(ChapterItem(cat[k].0))
           && opf[n + 3 + k] == ItemrefLine(cat[k].0)
  {
    var m := Manifest(b, cat);
    var n := |m|;
    var ml := ManifestLines(m);
    var sl := SpineLines(Spine(cat));
    var opf := OpfBodyLines(b, cat);
    assert opf == ml + [SpineOpening] + sl + OpfClosingLines;
    assert |m| >= |cat| && |sl| == |cat| + 2;
    forall k | 0 <= k < |cat|
      ensures opf[k] == ItemLine(ChapterItem(cat[k].0))
      ensures opf[n + 3 + k] == ItemrefLine(cat[k].0)
    {
      assert m[k] == ChapterItems(cat)[k];
      assert opf[k] == ml[k];
      assert opf[n + 3 + k] == sl[k + 2];
    }
  }

  /** The rendered NCX has one navPoint line per catalog entry, in catalog
      order, numbered from 1 and pointing at the entry's chapter file. */
  lemma RenderedNcxChapterLines(cat: Catalog)
    ensures var ncx := NcxBodyLines(cat);
      && |ncx| == |cat| + 2
      && forall k :: 0 <= k < |cat| ==>
           ncx[k] == "<navPoint id=\"" + cat[k].0 + "\" playOrder=\"" + NatToString(k + 1)
                     + "\"><navLabel><text>" + cat[k].1 + "</text></navLabel><content src=\""
                     + ChapterHref(cat[k].0) + "\"/></navPoint>\n"
  {
    var ncx := NcxBodyLines(cat);
    var nav := NavMap(cat);
    forall k | 0 <= k < |cat|
      ensures ncx[k] == NavPointLine(NavPoint(cat[k].0, k + 1, cat[k].1, ChapterHref(cat[k].0)))
    {
      assert ncx[k] == NavPointLine(nav[k]);
    }
  }

  /** The rendered catalog page has one `<li>` line per catalog entry, in
      catalog order, linking the entry's chapter file under its title. */
  lemma RenderedCatalogChapterLines(cat: Catalog)
    ensures var page := CatalogBodyLines(cat);
      && |page| == |cat| + 1
      && forall k :: 0 <= k < |cat| ==>
           page[k] == "        <li class=\"catalog\"><a href=\"" + ChapterHref(cat[k].0) + "\">"
                      + cat[k].1 + "</a></li>\n"
  {
  }
}

=== FILE: epub.dfy ===
/** The `Epub` class (epub.py): a book, its catalog and its working
    directory, with the chapter-ingestion operations, the cover copy, the
    document generation of `create`, and the archive plan that ends it.
    The working directory is a map from relative path to file content;
    files outside it (a cover image, a chapter source) are a second map
    that the caller supplies. Opening a file with mode 'w' replaces its
    content; mode 'a' appends to it. */
module Epub {
  import opened Results
  import opened Strings
  import opened Catalog
  import EpubBase
  import Chapter
  import Documents
  import Archive

  /** Relative path → content. */
  type Files = map<string, string>

  datatype Epub = Epub(book: EpubBase.Book, catalog: Catalog, files: Files)

  const ContainerPath: string := "META-INF/container.xml"
  const MetaInfDir: string := "META-INF"
  const ContainerName: string := "container.xml"
  const OpfPath: string := "content.opf"
  const PagePath: string := "page.xhtml"
  const CatalogPath: string := "catalog.xhtml"
  const MimetypePath: string := "mimetype"
  const StylesheetPath: string := "stylesheet.css"
  const NcxPath: string := "toc.ncx"

  /** `open(name, 'w').write(content)`. */
  function Write(w: Files, name: string, content: string): Files
  {
    w[name := content]
  }

  /** `open(name, 'a').write(content)`, which creates a missing file. */
  function Append(w: Files, name: string, content: string): Files
  {
    w[name := (if name in w then w[name] else "") + content]
  }

  /** One `write` call per line on a file that is already open. */
  function WriteLines(w: Files, name: string, lines: seq<string>): Files
    decreases |lines|
  {
    if lines == [] then w else WriteLines(Append(w, name, lines[0]), name, lines[1..])
  }

  /** `with open(name, 'a')` followed by one `write` call per line: the
      open creates a missing file even when no line follows. */
  function AppendLines(w: Files, name: string, lines: seq<string>): Files
  {
    WriteLines(Append(w, name, ""), name, lines)
  }

  /** Writing the lines one by one to an open file leaves it holding its
      old content followed by the lines in order, and touches no other
      file. */
  lemma {:induction false} WriteLinesIsConcat(w: Files, name: string, lines: seq<string>)
    requires name in w
    ensures WriteLines(w, name, lines) == w[name := w[name] + Concat(lines)]
    decreases |lines|
  {
    if lines == [] {
      assert w[name] + Concat(lines) == w[name];
      assert w[name := w[name] + Concat(lines)] == w;
    } else {
      var next := Append(w, name, lines[0]);
      WriteLinesIsConcat(next, name, lines[1..]);
      assert next[name] + Concat(lines[1..]) == w[name] + Concat(lines);
      assert next[name := next[name] + Concat(lines[1..])] == w[name := w[name] + Concat(lines)];
    }
  }

  /** Appending lines leaves the file holding its old content (nothing,
      when it did not exist) followed by the lines in order, and touches no
      other file. */
  lemma AppendLinesIsConcat(w: Files, name: string, lines: seq<string>)
    ensures AppendLines(w, name, lines)
      == w[name := (if name in w then w[name] else "") + Concat(lines)]
  {
    var open := Append(w, name, "");
    WriteLinesIsConcat(open, name, lines);
    assert open[name] == (if name in w then w[name] else "");
    assert open[name := open[name] + Concat(lines)]
      == w[name := (if name in w then w[name] else "") + Concat(lines)];
  }

  /** A head written with mode 'w' and a body appended after it: the file
      then holds exactly head and body, whatever it held before. */
  function WriteDocument(w: Files, name: string, head: string, body: seq<string>): (r: Files)
    ensures r == w[name := head + Concat(body)]
  {
    AppendLinesIsConcat(Write(w, name, head), name, body);
    AppendLines(Write(w, name, head), name, body)
  }

  /** `Epub(path)` over a working directory that already holds `existing`
      (the constructor only creates missing directories; it removes nothing). */
  function New(path: string, existing: Files): Epub
  {
    Epub(EpubBase.New(path), [], existing)
  }

  /** The file `chapter_from_file` stores a chapter under. */
  function CopiedChapterPath(id: Id): string
  {
    id + ".xhtml"
  }

  /** `create_chapter`: records the title under the id and writes the
      formatted chapter to its chapter file. */
  function CreateChapter(e: Epub, id: Id, title: Title, content: Chapter.Content): (r: Epub)
    ensures r.book == e.book
    ensures r.catalog == Insert(e.catalog, id, title)
    ensures AsMap(r.catalog) == AsMap(e.catalog)[id := title]
    ensures r.files.Keys == e.files.Keys + {Documents.ChapterHref(id)}
    ensures r.files[Documents.ChapterHref(id)] == Chapter.Format(title, content)
    ensures forall k :: k in e.files && k != Documents.ChapterHref(id) ==> r.files[k] == e.files[k]
  {
    InsertIsDictAssignment(e.catalog, id, title);
    Epub(e.book, Insert(e.catalog, id, title),
         Write(e.files, Documents.ChapterHref(id), Chapter.Format(title, content)))
  }

  /** `chapter_from_file`: a missing source fails before the catalog is
      touched; otherwise the title is recorded and the source copied
      verbatim to `{id}.xhtml`. */
  function ChapterFromFile(e: Epub, id: Id, title: Title, filename: string, external: Files)
    : (r: Result<Epub>)
    ensures filename !in external ==> r == Err(NotFound(filename))
    ensures filename in external ==>
      && r.Ok?
      && r.value.book == e.book
      && r.value.catalog == Insert(e.catalog, id, title)
      && AsMap(r.value.catalog) == AsMap(e.catalog)[id := title]
      && r.value.files == e.files[CopiedChapterPath(id) := external[filename]]
  {
    if filename !in external then Err(NotFound(filename))
    else
      InsertIsDictAssignment(e.catalog, id, title);
      Ok(Epub(e.book, Insert(e.catalog, id, title),
              Write(e.files, CopiedChapterPath(id), external[filename])))
  }

  /** `add_cover`: the metadata update of `EpubBase.AddCover`, plus the copy
      of the image to `cover.<suffix>`. On failure nothing is recorded. */
  function AddCover(e: Epub, imgName: string, external: Files): (r: Result<Epub>)
    ensures imgName !in external ==> r == Err(NotFound(imgName))
    ensures imgName in external && '.' !in imgName ==> r == Err(NoSuffix(imgName))
    ensures imgName in external && '.' in imgName ==>
      && r.Ok?
      && r.value.book == EpubBase.AddCover(e.book, imgName, true).value
      && r.value.files
         == e.files[EpubBase.CoverFileName(EpubBase.CoverSuffix(imgName).value) := external[imgName]]
    ensures r.Ok? ==>
      && r.value.catalog == e.catalog
      && r.value.book.cover.Some?
      && var name := EpubBase.CoverFileName(r.value.book.cover.value.suffix);
         r.value.files == e.files[name := external[imgName]]
  {
    match EpubBase.AddCover(e.book, imgName, imgName in external)
    case Err(err) => Err(err)
    case Ok(b) =>
      Ok(Epub(b, e.catalog,
              Write(e.files, EpubBase.CoverFileName(b.cover.value.suffix), external[imgName])))
  }

  /** `write_opf`: the head with mode 'w', then the manifest, spine and
      guide appended. */
  function WriteOpf(w: Files, b: EpubBase.Book, cat: Catalog): (r: Files)
    ensures r == w[OpfPath := Documents.OpfText(b, cat)]
  {
    WriteDocument(w, OpfPath, EpubBase.OpfHead(b), Documents.OpfBodyLines(b, cat))
  }

  /** `write_catalog`: the head with mode 'w', then one link per entry. */
  function WriteCatalog(w: Files, cat: Catalog): (r: Files)
    ensures r == w[CatalogPath := Documents.CatalogText(cat)]
  {
    WriteDocument(w, CatalogPath, EpubBase.CatalogHead, Documents.CatalogBodyLines(cat))
  }

  /** `write_toc`: the head with mode 'w', then one navPoint per entry. */
  function WriteToc(w: Files, b: EpubBase.Book, cat: Catalog): (r: Files)
    ensures r == w[NcxPath := Documents.NcxText(b, cat)]
  {
    WriteDocument(w, NcxPath, EpubBase.NcxHead(b), Documents.NcxBodyLines(cat))
  }

  const GeneratedPaths: set<string> :=
    {ContainerPath, OpfPath, PagePath, CatalogPath, MimetypePath, StylesheetPath, NcxPath}

  /** The seven documents `create` writes, one field per file. */
  datatype Output = Output(
    container: string, opf: string, page: string, catalogPage: string,
    mimetype: string, stylesheet: string, ncx: string)

  /** The documents rendered from the current metadata and catalog. */
  function Render(b: EpubBase.Book, cat: Catalog): Output
  {
    Output(EpubBase.ContainerXml, Documents.OpfText(b, cat), EpubBase.PageText(b),
           Documents.CatalogText(cat), EpubBase.MimetypeText, EpubBase.Stylesheet,
           Documents.NcxText(b, cat))
  }

  /** Writing the seven documents, in `create`'s order: each file then holds
      its document whatever it held before, and every other file is kept. */
  function WriteOutput(w: Files, d: Output): (r: Files)
    ensures r.Keys == w.Keys + GeneratedPaths
    ensures && r[ContainerPath] == d.container && r[OpfPath] == d.opf
            && r[PagePath] == d.page && r[CatalogPath] == d.catalogPage
            && r[MimetypePath] == d.mimetype && r[StylesheetPath] == d.stylesheet
            && r[NcxPath] == d.ncx
    ensures forall k :: k in w && k !in GeneratedPaths ==> r[k] == w[k]
  {
    var w1 := Write(w, ContainerPath, d.container);
    var w2 := Write(w1, OpfPath, d.opf);
    var w3 := Write(w2, PagePath, d.page);
    var w4 := Write(w3, CatalogPath, d.catalogPage);
    var w5 := Write(w4, MimetypePath, d.mimetype);
    var w6 := Write(w5, StylesheetPath, d.stylesheet);
    Write(w6, NcxPath, d.ncx)
  }

  /** Writing the same documents twice leaves what one writing leaves. */
  lemma WriteOutputIdempotent(w: Files, d: Output)
    ensures WriteOutput(WriteOutput(w, d), d) == WriteOutput(w, d)
  {
    var once := WriteOutput(w, d);
    var twice := WriteOutput(once, d);
    assert twice.Keys == once.Keys;
    forall k | k in once
      ensures twice[k] == once[k]
    {
    }
  }

  /** What the seven writes leave in the seven files does not depend on
      the directory they were made in. */
  lemma WriteOutputDeterministic(w1: Files, w2: Files, d: Output)
    ensures forall p :: p in GeneratedPaths ==> WriteOutput(w1, d)[p] == WriteOutput(w2, d)[p]
  {
  }

  /** The writes `create` makes before compressing, in its order:
      container, OPF, information page, catalog page, mimetype, stylesheet,
      NCX. The three generated documents are written by their stage
      functions (a head, then appended lines). */
  function Generate(e: Epub): (r: Epub)
    ensures r.book == e.book && r.catalog == e.catalog
    ensures r.files == WriteOutput(e.files, Render(e.book, e.catalog))
  {
    var b := e.book;
    var w1 := Write(e.files, ContainerPath, EpubBase.ContainerXml);
    var w2 := WriteOpf(w1, b, e.catalog);
    var w3 := Write(w2, PagePath, EpubBase.PageText(b));
    var w4 := WriteCatalog(w3, e.catalog);
    var w5 := Write(w4, MimetypePath, EpubBase.MimetypeText);
    var w6 := Write(w5, StylesheetPath, EpubBase.Stylesheet);
    var w7 := WriteToc(w6, b, e.catalog);
    e.(files := w7)
  }

  /** After generation every document holds exactly its rendering from the
      current metadata and catalog, whatever the directory held before; no
      other file changes. */
  lemma GeneratedDocuments(e: Epub)
    ensures var g := Generate(e).files;
      && g.Keys == e.files.Keys + GeneratedPaths
      && g[ContainerPath] == EpubBase.ContainerXml
      && g[OpfPath] == Documents.OpfText(e.book, e.catalog)
      && g[PagePath] == EpubBase.PageText(e.book)
      && g[CatalogPath] == Documents.CatalogText(e.catalog)
      && g[MimetypePath] == EpubBase.MimetypeText
      && g[StylesheetPath] == EpubBase.Stylesheet
      && g[NcxPath] == Documents.NcxText(e.book, e.catalog)
      && forall k :: k in e.files && k !in GeneratedPaths ==> g[k] == e.files[k]
  {
  }

  /** Re-running the generation reproduces the same directory. */
  lemma GenerateIdempotent(e: Epub)
    ensures Generate(Generate(e)) == Generate(e)
  {
    WriteOutputIdempotent(e.files, Render(e.book, e.catalog));
  }

  /** The generated documents depend only on the metadata and the catalog,
      not on what the directory held. */
  lemma GenerateDeterministic(e1: Epub, e2: Epub)
    requires e1.book == e2.book && e1.catalog == e2.catalog
    ensures forall p :: p in GeneratedPaths ==> Generate(e1).files[p] == Generate(e2).files[p]
  {
    WriteOutputDeterministic(e1.files, e2.files, Render(e1.book, e1.catalog));
  }

  /** Every chapter the catalog lists has its chapter file, and the cover
      file exists when a cover is recorded. */
  predicate Consistent(e: Epub)
  {
    && EpubBase.CoverConsistent(e.book)
    && (forall k :: 0 <= k < |e.catalog| ==> Documents.ChapterHref(e.catalog[k].0) in e.files)
    && (e.book.cover.Some? ==> EpubBase.CoverFileName(e.book.cover.value.suffix) in e.files)
  }

  /** A new book is consistent. */
  lemma NewConsistent(path: string, existing: Files)
    ensures Consistent(New(path, existing))
  {
  }

  /** `create_chapter` keeps the book consistent. */
  lemma CreateChapterConsistent(e: Epub, id: Id, title: Title, content: Chapter.Content)
    requires Consistent(e)
    ensures Consistent(CreateChapter(e, id, title, content))
  {
    var r := CreateChapter(e, id, title, content);
    forall k | 0 <= k < |r.catalog|
      ensures Documents.ChapterHref(r.catalog[k].0) in r.files
    {
      var i := r.catalog[k].0;
      assert Ids(r.catalog)[k] == i;
      assert i in AsMap(r.catalog);
      if i != id {
        assert i in AsMap(e.catalog);
        var j :| 0 <= j < |e.catalog| && e.catalog[j].0 == i;
      }
    }
  }

  /** `add_cover` keeps the book consistent. */
  lemma AddCoverConsistent(e: Epub, imgName: string, external: Files)
    requires Consistent(e) && AddCover(e, imgName, external).Ok?
    ensures Consistent(AddCover(e, imgName, external).value)
  {
  }

  /** `chapter_from_file` does not keep the book consistent: the copy goes
      to `{id}.xhtml`, while the manifest, the NCX and the catalog page all
      reference `chapter_{id}.xhtml`, which the copy does not create. */
  lemma ChapterFromFileLeavesHrefDangling(e: Epub, id: Id, title: Title, filename: string, external: Files)
    requires filename in external && Documents.ChapterHref(id) !in e.files
    ensures var r := ChapterFromFile(e, id, title, filename, external).value;
      && CopiedChapterPath(id) in r.files
      && Documents.ChapterHref(id) !in r.files
      && (exists k :: 0 <= k < |r.catalog| && Documents.Manifest(r.book, r.catalog)[k].href == Documents.ChapterHref(id))
      && !Consistent(r)
  {
    var r := ChapterFromFile(e, id, title, filename, external).value;
    assert |CopiedChapterPath(id)| != |Documents.ChapterHref(id)|;
    assert id in AsMap(r.catalog);
    var k :| 0 <= k < |r.catalog| && r.catalog[k].0 == id;
    Documents.ManifestShape(r.book, r.catalog);
  }

  /** For a consistent book, whatever the seven documents hold, every
      manifest item names a file of the directory once they are written. */
  lemma ManifestResolvesAfterWrite(e: Epub, d: Output)
    requires Consistent(e)
    ensures var w := WriteOutput(e.files, d);
      forall it :: it in Documents.Manifest(e.book, e.catalog) ==> it.href in w
  {
    var w := WriteOutput(e.files, d);
    var m := Documents.Manifest(e.book, e.catalog);
    Documents.ManifestShape(e.book, e.catalog);
    forall it | it in m
      ensures it.href in w
    {
      var i :| 0 <= i < |m| && m[i] == it;
      if i < |e.catalog| {
        assert it.href == Documents.ChapterHref(e.catalog[i].0);
      } else if i >= |m| - 4 {
        assert it == Documents.FixedItems[i - (|m| - 4)];
      }
    }
  }

  /** For a consistent book, every manifest item of the generated OPF names
      a file of the generated directory. */
  lemma ManifestResolves(e: Epub)
    requires Consistent(e)
    ensures var g := Generate(e);
      forall it :: it in Documents.Manifest(g.book, g.catalog) ==> it.href in g.files
  {
    ManifestResolvesAfterWrite(e, Render(e.book, e.catalog));
  }

  /** The package `create` ends with: the archive path, its planned entries,
      and whether the working directory is then removed. */
  datatype Package = Package(archivePath: string, entries: seq<Archive.ArchiveEntry>, removesWorkdir: bool)

  datatype Created = Created(state: Epub, package: Result<Package>)

  /** The file `k` of a directory lies directly inside the listed
      sub-directory that `listing` reports for its first path component:
      `dir/child` is listed as the child `child` of `Dir(dir, …)`. A deeper
      path (one whose remainder still holds a `/`) is not constrained. */
  predicate ListedUnder(listing: seq<Archive.Entry>, k: string)
  {
    var d := TakeUntil(k, '/');
    |d| < |k| ==>
      var c := k[|d| + 1..];
      '/' in c || exists i :: 0 <= i < |listing| && listing[i].Dir? && listing[i].name == d && c in listing[i].children
  }

  /** `listing` is what the operating system reports for the directory `w`:
      each name once, no name or child holding a `/`, every listed file
      present, every child of a listed sub-directory present under
      `dir/child`, every top-level file listed, and every file directly
      inside a sub-directory listed as a child of that sub-directory. */
  predicate Describes(listing: seq<Archive.Entry>, w: Files)
  {
    && Archive.UniqueNames(listing)
    && (forall i :: 0 <= i < |listing| ==> '/' !in listing[i].name)
    && (forall i, c :: 0 <= i < |listing| && listing[i].Dir? && c in listing[i].children ==> '/' !in c)
    && (forall i :: 0 <= i < |listing| && listing[i].File? ==> listing[i].name in w)
    && (forall i, c :: 0 <= i < |listing| && listing[i].Dir? && c in listing[i].children ==>
          listing[i].name + "/" + c in w)
    && (forall k :: k in w && '/' !in k ==> exists i :: 0 <= i < |listing| && listing[i] == Archive.File(k))
    && (forall k {:trigger ListedUnder(listing, k)} :: k in w ==> ListedUnder(listing, k))
  }

  /** The compression step of `create`: `<path>.epub` holding the planned
      entries, and the working directory removed afterwards when `clean`. */
  function Compress(path: string, listing: seq<Archive.Entry>, clean: bool): (r: Result<Package>)
    ensures !Archive.Listed(listing, Archive.MimetypeName) ==> r == Err(NotFound(Archive.MimetypeName))
    ensures r.Ok? ==>
      && r.value.archivePath == path + ".epub"
      && r.value.removesWorkdir == clean
      && r.value.entries != []
      && r.value.entries[0] == Archive.ArchiveEntry(Archive.MimetypeName, Archive.Stored)
  {
    match Archive.Plan(listing)
    case Err(err) => Err(err)
    case Ok(entries) => Ok(Package(path + ".epub", entries, clean))
  }

  /** What a package made from a listing that holds `mimetype` once
      amounts to, with `others` the listing without `mimetype`: it succeeds
      exactly when no other sub-directory is empty, and a failure names
      such a directory; a package has one entry per listed name,
      `mimetype` first and stored and nowhere else, then the other names
      in listing order, each deflated under its archive name. */
  predicate ArchivesListing(p: Result<Package>, listing: seq<Archive.Entry>)
  {
    var others := Archive.RemoveFirst(listing, Archive.MimetypeName);
    && |others| + 1 == |listing|
    && (p.Ok? <==> forall i :: 0 <= i < |others| && others[i].Dir? ==> others[i].children != [])
    && (p.Err? ==> exists i :: (
          && 0 <= i < |others| && others[i].Dir? && others[i].children == []
          && p.error == EmptyDirectory(others[i].name)))
    && (p.Ok? ==>
          && |p.value.entries| == |listing|
          && p.value.entries[0] == Archive.ArchiveEntry(Archive.MimetypeName, Archive.Stored)
          && forall k :: 1 <= k < |p.value.entries| ==>
               && p.value.entries[k] == Archive.ArchiveEntry(Archive.ArchiveName(others[k - 1]), Archive.Deflated)
               && p.value.entries[k].name != Archive.MimetypeName)
  }

  /** Every top-level file of `w` is archived under its own name, stored
      when it is `mimetype` and deflated otherwise. */
  predicate ArchivesTopLevelFiles(p: Package, w: Files)
  {
    forall f :: f in w && '/' !in f ==>
      exists j :: 0 <= j < |p.entries| && p.entries[j] ==
        Archive.ArchiveEntry(f, if f == Archive.MimetypeName then Archive.Stored else Archive.Deflated)
  }

  /** A directory that holds `mimetype` at the top level, listed faithfully,
      cannot fail for want of it: compression fails only on an empty
      sub-directory, which the error names; otherwise it archives every
      listed name once, in listing order after `mimetype`. */
  lemma CompressDescribed(path: string, listing: seq<Archive.Entry>, w: Files, clean: bool)
    requires Describes(listing, w) && MimetypePath in w
    ensures ArchivesListing(Compress(path, listing, clean), listing)
  {
    assert '/' !in MimetypePath;
    var m :| 0 <= m < |listing| && listing[m] == Archive.File(MimetypePath);
    Archive.PlanOfListing(listing, m);
  }

  /** The package made from a faithful listing holds every top-level file
      of the directory under its own name. */
  lemma CompressKeepsTopLevelFiles(path: string, listing: seq<Archive.Entry>, w: Files, clean: bool)
    requires Describes(listing, w) && MimetypePath in w
    ensures Compress(path, listing, clean).Ok? ==> ArchivesTopLevelFiles(Compress(path, listing, clean).value, w)
  {
    var r := Compress(path, listing, clean);
    if r.Ok? {
      assert '/' !in MimetypePath;
      var m :| 0 <= m < |listing| && listing[m] == Archive.File(MimetypePath);
      CompressDescribed(path, listing, w, clean);
      TopLevelFilesArchived(r.value, listing, w, m);
    }
  }

  /** A package that archives a faithful listing of `w` holds every
      top-level file of `w`. */
  lemma TopLevelFilesArchived(p: Package, listing: seq<Archive.Entry>, w: Files, m: nat)
    requires Describes(listing, w) && ArchivesListing(Ok(p), listing)
    requires m < |listing| && listing[m] == Archive.File(MimetypePath)
    ensures ArchivesTopLevelFiles(p, w)
  {
    Archive.RemoveFirstAt(listing, m);
    var others := listing[..m] + listing[m + 1..];
    forall f | f in w && '/' !in f
      ensures exists j :: (0 <= j < |p.entries| && p.entries[j] ==
        Archive.ArchiveEntry(f, if f == Archive.MimetypeName then Archive.Stored else Archive.Deflated))
    {
      var i :| 0 <= i < |listing| && listing[i] == Archive.File(f);
      if i != m {
        var k := if i < m then i + 1 else i;
        assert others[k - 1] == listing[i];
        assert p.entries[k] == Archive.ArchiveEntry(f, Archive.Deflated);
      } else {
        assert p.entries[0] == Archive.ArchiveEntry(f, Archive.Stored);
      }
    }
  }

  /** What compression does with a sub-directory `d` that holds a file:
      the listing reports it with that child, compression never fails on
      it, it succeeds when no other sub-directory is empty, and the package
      then holds `d/<first child>`, a file of the directory. */
  predicate ArchivesSubdirectory(p: Result<Package>, listing: seq<Archive.Entry>, w: Files, d: string, c: string)
  {
    && (exists i :: 0 <= i < |listing| && listing[i].Dir? && listing[i].name == d && c in listing[i].children)
    && (p.Err? ==> p.error != EmptyDirectory(d))
    && ((forall i :: 0 <= i < |listing| && listing[i].Dir? && listing[i].name != d ==> listing[i].children != [])
          ==> p.Ok?)
    && (p.Ok? ==> forall i :: 0 <= i < |listing| && listing[i].Dir? && listing[i].name == d ==>
          && listing[i].children != []
          && d + "/" + listing[i].children[0] in w
          && Archive.ArchiveEntry(d + "/" + listing[i].children[0], Archive.Deflated) in p.value.entries)
  }

  /** A file directly inside a sub-directory is listed as a child of that
      sub-directory. */
  lemma SubdirectoryListed(listing: seq<Archive.Entry>, w: Files, d: string, c: string)
    requires Describes(listing, w)
    requires d + "/" + c in w && '/' !in d && '/' !in c
    ensures exists i :: 0 <= i < |listing| && listing[i].Dir? && listing[i].name == d && c in listing[i].children
  {
    var k := d + "/" + c;
    TakeUntilStops(d, "/" + c, '/');
    assert k[|d| + 1..] == c;
    assert ListedUnder(listing, k);
  }

  /** Every entry of the listing without `mimetype` is an entry of the
      listing. */
  lemma OthersAreListed(listing: seq<Archive.Entry>, m: nat, j: nat)
    requires m < |listing| && j < |listing| - 1
    ensures var others := listing[..m] + listing[m + 1..];
      others[j] == listing[if j < m then j else j + 1]
  {
  }

  /** A package that archives `listing` did not fail on a non-empty
      sub-directory at position `i` of it. */
  lemma PackageNotFailedOn(p: Result<Package>, listing: seq<Archive.Entry>, m: nat, i: nat)
    requires ArchivesListing(p, listing) && Archive.UniqueNames(listing)
    requires m < |listing| && listing[m] == Archive.File(MimetypePath)
    requires i < |listing| && listing[i].Dir? && listing[i].children != []
    ensures p.Err? ==> p.error != EmptyDirectory(listing[i].name)
  {
    if p.Err? {
      Archive.RemoveFirstAt(listing, m);
      var others := listing[..m] + listing[m + 1..];
      var j :| 0 <= j < |others| && others[j].Dir? && others[j].children == [] && p.error == EmptyDirectory(others[j].name);
      OthersAreListed(listing, m, j);
    }
  }

  /** A package that archives `listing` holds the first child of the
      non-empty sub-directory at position `i` of it. */
  lemma PackageKeepsSubdirectory(p: Package, listing: seq<Archive.Entry>, m: nat, i: nat)
    requires ArchivesListing(Ok(p), listing) && Archive.UniqueNames(listing)
    requires m < |listing| && listing[m] == Archive.File(MimetypePath)
    requires i < |listing| && listing[i].Dir? && listing[i].children != []
    ensures Archive.ArchiveEntry(listing[i].name + "/" + listing[i].children[0], Archive.Deflated) in p.entries
  {
    assert i != m;
    var others := Archive.RemoveFirst(listing, Archive.MimetypeName);
    assert |p.entries| == |listing|;
    Archive.RemoveFirstAt(listing, m);
    var ki := if i < m then i + 1 else i;
    OthersAreListed(listing, m, ki - 1);
    assert others[ki - 1] == listing[i];
    assert p.entries[ki] == Archive.ArchiveEntry(Archive.ArchiveName(others[ki - 1]), Archive.Deflated);
  }

  /** A package that archives `listing` succeeds when the only sub-directory
      that might be empty is one known to hold a child. */
  lemma PackageSucceedsUnlessOtherEmpty(p: Result<Package>, listing: seq<Archive.Entry>, m: nat, i: nat)
    requires ArchivesListing(p, listing) && Archive.UniqueNames(listing)
    requires m < |listing| && listing[m] == Archive.File(MimetypePath)
    requires i < |listing| && listing[i].Dir? && listing[i].children != []
    requires forall a :: 0 <= a < |listing| && listing[a].Dir? && listing[a].name != listing[i].name ==>
               listing[a].children != []
    ensures p.Ok?
  {
    Archive.RemoveFirstAt(listing, m);
    var others := listing[..m] + listing[m + 1..];
    forall j | 0 <= j < |others| && others[j].Dir?
      ensures others[j].children != []
    {
      OthersAreListed(listing, m, j);
    }
  }

  /** A sub-directory that holds a file, listed faithfully, is never the
      empty directory compression fails on, and its first child is
      archived. */
  lemma CompressKeepsSubdirectory(path: string, listing: seq<Archive.Entry>, w: Files, clean: bool, d: string, c: string)
    requires Describes(listing, w) && MimetypePath in w
    requires d + "/" + c in w && '/' !in d && '/' !in c
    ensures ArchivesSubdirectory(Compress(path, listing, clean), listing, w, d, c)
  {
    SubdirectoryListed(listing, w, d, c);
    var i :| 0 <= i < |listing| && listing[i].Dir? && listing[i].name == d && c in listing[i].children;
    assert '/' !in MimetypePath;
    var m :| 0 <= m < |listing| && listing[m] == Archive.File(MimetypePath);
    var p := Compress(path, listing, clean);
    CompressDescribed(path, listing, w, clean);
    PackageNotFailedOn(p, listing, m, i);
    if p.Ok? {
      PackageKeepsSubdirectory(p.value, listing, m, i);
    }
    if forall a :: 0 <= a < |listing| && listing[a].Dir? && listing[a].name != d ==> listing[a].children != [] {
      PackageSucceedsUnlessOtherEmpty(p, listing, m, i);
    }
    forall a | 0 <= a < |listing| && listing[a].Dir? && listing[a].name == d
      ensures a == i
    {
    }
  }

  /** `create(clean)`: generate every document, then compress the directory
      as `listing` reports it. */
  function Create(e: Epub, listing: seq<Archive.Entry>, clean: bool): Created
  {
    Created(Generate(e), Compress(e.book.path, listing, clean))
  }

  /** Once the documents are generated, compression cannot miss `mimetype`:
      it fails only on an empty sub-directory, which the error names, and
      otherwise archives every listed name once, in listing order after
      `mimetype`, and with them every top-level file of the generated
      directory. */
  lemma CreateAfterGenerate(e: Epub, listing: seq<Archive.Entry>, clean: bool)
    requires Describes(listing, Generate(e).files)
    ensures ArchivesListing(Create(e, listing, clean).package, listing)
    ensures Create(e, listing, clean).package.Ok? ==>
      ArchivesTopLevelFiles(Create(e, listing, clean).package.value, Generate(e).files)
  {
    assert MimetypePath in GeneratedPaths;
    CompressDescribed(e.book.path, listing, Generate(e).files, clean);
    CompressKeepsTopLevelFiles(e.book.path, listing, Generate(e).files, clean);
  }

  /** A directory holding `mimetype` and `META-INF/container.xml`, listed
      faithfully, never fails compression on `META-INF`. */
  lemma CompressKeepsMetaInf(path: string, listing: seq<Archive.Entry>, w: Files, clean: bool)
    requires Describes(listing, w) && MimetypePath in w && ContainerPath in w
    ensures ArchivesSubdirectory(Compress(path, listing, clean), listing, w, MetaInfDir, ContainerName)
  {
    ContainerPathSplits();
    CompressKeepsSubdirectory(path, listing, w, clean, MetaInfDir, ContainerName);
  }

  /** The container document lies directly inside `META-INF`. */
  lemma ContainerPathSplits()
    ensures ContainerPath == MetaInfDir + "/" + ContainerName
    ensures '/' !in MetaInfDir && '/' !in ContainerName
  {
  }

  /** `create` never fails on `META-INF`: the generated directory holds
      `META-INF/container.xml`, so a faithful listing reports `META-INF`
      with that child; compression then fails only on another empty
      sub-directory, and a package holds `META-INF/<first child>`. */
  lemma CreateKeepsMetaInf(e: Epub, listing: seq<Archive.Entry>, clean: bool)
    requires Describes(listing, Generate(e).files)
    ensures ArchivesSubdirectory(Create(e, listing, clean).package, listing, Generate(e).files, MetaInfDir, ContainerName)
  {
    assert MimetypePath in GeneratedPaths && ContainerPath in GeneratedPaths;
    CompressKeepsMetaInf(e.book.path, listing, Generate(e).files, clean);
  }
}

=== FILE: epubbase.dfy ===
/** The book metadata of `EpubBase` (utils.py): the record, its defaults and
    setters, the cover suffix and media-type rule, the author display rule,
    and the fixed documents and document heads written from the metadata.
    Writing a document to disk is not modelled here: each writer is a
    function returning the text it would write. */
module EpubBase {
  import opened Results
  import opened Strings

  /** The cover image as `add_cover` records it: the suffix taken from the
      image name, and the media-type subtype derived from that suffix. */
  datatype Cover = Cover(suffix: string, mediaType: string)

  /** The state of an `EpubBase`. `path` is the working directory. `cover` is
      `None` exactly while `cover_img_path` is `None`. */
  datatype Book = Book(
    path: string,
    title: string,
    authors: seq<string>,
    lang: string,
    intro: string,
    cover: Option<Cover>)

  const DefaultLanguage: string := "zh-cn"
  const DefaultIntro: string := "No introduction"
  /** Shown in place of the author list when there are no authors (the
      spelling is the program's own). */
  const Anonymous: string := "Unknow"

  /** The title derived from the working-directory path: its final '/'
      segment, cut at the first '.'. */
  function DefaultTitle(path: string): string
  {
    Split(AfterLast(path, '/'), '.')[0]
  }

  /** The default title is a run of `path` that starts the final segment,
      holds neither '/' nor '.', and is followed by a '.' or by the end. */
  lemma DefaultTitleIsFinalSegmentStem(path: string)
    ensures var r := DefaultTitle(path);
      && '/' !in r && '.' !in r
      && exists i :: (
           && 0 <= i <= |path| - |r| && path[i..] == r + path[i + |r|..]
           && (i == 0 || path[i - 1] == '/')
           && '/' !in path[i..]
           && (i + |r| == |path| || path[i + |r|] == '.'))
  {
    var segment := AfterLast(path, '/');
    SplitFirstField(segment, '.');
    var r := DefaultTitle(path);
    var i := |path| - |segment|;
    assert path[i..] == segment;
    assert segment == r + segment[|r|..];
  }

  /** A freshly constructed book. */
  function New(path: string): (b: Book)
    ensures b.path == path && b.title == DefaultTitle(path)
    ensures b.authors == [] && b.cover == None
    ensures b.lang == DefaultLanguage && b.intro == DefaultIntro
  {
    Book(path, DefaultTitle(path), [], DefaultLanguage, DefaultIntro, None)
  }

  function SetTitle(b: Book, title: string): (r: Book)
    ensures r.title == title && r.(title := b.title) == b
  {
    b.(title := title)
  }

  /** Appends one author; the earlier authors keep their order. */
  function AddAuthor(b: Book, author: string): (r: Book)
    ensures |r.authors| == |b.authors| + 1
    ensures r.authors[..|b.authors|] == b.authors && r.authors[|b.authors|] == author
    ensures r.(authors := b.authors) == b
  {
    b.(authors := b.authors + [author])
  }

  function SetLanguage(b: Book, lang: string): (r: Book)
    ensures r.lang == lang && r.(lang := b.lang) == b
  {
    b.(lang := lang)
  }

  function AddIntro(b: Book, intro: string): (r: Book)
    ensures r.intro == intro && r.(intro := b.intro) == b
  {
    b.(intro := intro)
  }

  /** The media-type subtype declared for a cover with the given suffix. */
  function MediaType(suffix: string): string
  {
    if suffix == "jpg" then "jpeg"
    else if suffix == "svg" then "svg+xml"
    else suffix
  }

  /** Two suffixes share a media type only when they are the two spellings
      of JPEG or of SVG; otherwise the media type identifies the suffix. */
  lemma MediaTypeCollisions(a: string, b: string)
    requires a != b && MediaType(a) == MediaType(b)
    ensures {a, b} == {"jpg", "jpeg"} || {a, b} == {"svg", "svg+xml"}
  {
  }

  /** The cover suffix: the second '.'-separated field of the image name,
      that is, the text after its first '.', up to the second '.' or to the
      end of the name when there is none. A name without any '.' has no
      second field. */
  function CoverSuffix(imgName: string): (r: Result<string>)
    ensures r.Ok? <==> '.' in imgName
    ensures r.Err? ==> r.error == NoSuffix(imgName)
    ensures r.Ok? ==> '.' !in r.value
    ensures r.Ok? ==>
      var first := TakeUntil(imgName, '.');
      |first| < |imgName| && r.value == TakeUntil(imgName[|first| + 1..], '.')
  {
    var fields := Split(imgName, '.');
    if |fields| < 2 then
      assert '.' !in multiset(imgName);
      Err(NoSuffix(imgName))
    else
      SplitRest(imgName, '.');
      SplitFirstField(imgName[|TakeUntil(imgName, '.')| + 1..], '.');
      Ok(fields[1])
  }

  /** The fields after the first one are the fields of the text after the
      first separator. */
  lemma {:induction false} SplitRest(s: string, c: char)
    requires c in s
    ensures |TakeUntil(s, c)| < |s|
    ensures Split(s, c)[1..] == Split(s[|TakeUntil(s, c)| + 1..], c)
  {
    assert s == [s[0]] + s[1..];
    if s[0] != c {
      var rest := Split(s[1..], c);
      SplitRest(s[1..], c);
      assert Split(s, c) == [[s[0]] + rest[0]] + rest[1..];
      assert TakeUntil(s, c) == [s[0]] + TakeUntil(s[1..], c);
      assert s[1..][|TakeUntil(s[1..], c)| + 1..] == s[|TakeUntil(s, c)| + 1..];
    } else {
      assert Split(s, c) == [""] + Split(s[1..], c);
    }
  }

  /** Name of the cover file in the working directory. */
  function CoverFileName(suffix: string): string
  {
    "cover." + suffix
  }

  /** The recorded media type is the one derived from the recorded suffix. */
  predicate CoverConsistent(b: Book)
  {
    b.cover.Some? ==> b.cover.value.mediaType == MediaType(b.cover.value.suffix)
  }

  /** `add_cover`: a missing image fails first; then a name without a '.'
      fails; otherwise the cover is recorded and nothing else changes. The
      file copy is done by the caller that owns the working directory. */
  function AddCover(b: Book, imgName: string, imageExists: bool): (r: Result<Book>)
    ensures !imageExists ==> r == Err(NotFound(imgName))
    ensures imageExists && '.' !in imgName ==> r == Err(NoSuffix(imgName))
    ensures imageExists && '.' in imgName ==>
      && r.Ok?
      && r.value.(cover := b.cover) == b
      && r.value.cover.Some?
      && r.value.cover.value.suffix == CoverSuffix(imgName).value
      && CoverConsistent(r.value)
  {
    if !imageExists then Err(NotFound(imgName))
    else
      match CoverSuffix(imgName)
      case Err(e) => Err(e)
      case Ok(suffix) => Ok(b.(cover := Some(Cover(suffix, MediaType(suffix)))))
  }

  /** The author display text shared by the info page, the NCX head and the
      OPF head. */
  function AuthorLine(authors: seq<string>): string
  {
    if authors == [] then Anonymous else Join(", ", authors)
  }

  /** Adding an author extends the display text by ", " and the new name,
      or replaces the placeholder when it was the first author. */
  lemma AuthorLineAddAuthor(b: Book, author: string)
    ensures AuthorLine(AddAuthor(b, author).authors)
      == if b.authors == [] then author else AuthorLine(b.authors) + ", " + author
  {
    if b.authors != [] {
      JoinSnoc(", ", b.authors, author);
    }
  }

  // ---------------------------------------------------------------------
  // Fixed documents

  const XmlDeclaration: string := "<?xml version=\"1.0\" encoding=\"utf-8\" standalone=\"no\"?>\n"
  const XhtmlDoctype: string :=
    "<!DOCTYPE html PUBLIC \"-//W3C//DTD XHTML 1.1//EN\" \"http://www.w3.org/TR/xhtml11/DTD/xhtml11.dtd\">\n"
  const HtmlOpen: string := "<html xmlns=\"http://www.w3.org/1999/xhtml\" xml:lang=\"zh-CN\">\n"

  /** The opening shared by the catalog page and every chapter, up to the
      `<title>` line. */
  const XhtmlOpening: string := XmlDeclaration + XhtmlDoctype + HtmlOpen + "<head>\n"

  /** The stylesheet link and page-margin style that follow the `<title>`
      line of the catalog page and of every chapter, through `<body>`. */
  const StyledBodyOpening: string :=
    "    <link href=\"stylesheet.css\" type=\"text/css\" rel=\"stylesheet\"/>\n"
    + "    <style type=\"text/css\">\n"
    + "        @page { margin-bottom: 5.000000pt; margin-top: 5.000000pt; }\n"
    + "    </style>\n"
    + "</head>\n"
    + "<body>\n"

  /** `META-INF/container.xml`: points the reader at `content.opf`. */
  const ContainerXml: string :=
    "<?xml version=\"1.0\"?>\n"
    + "<container version=\"1.0\" xmlns=\"urn:oasis:names:tc:opendocument:xmlns:container\">\n"
    + "   <rootfiles>\n"
    + "      <rootfile full-path=\"content.opf\" media-type=\"application/oebps-package+xml\"/>\n"
    + "   </rootfiles>\n"
    + "</container>"

  /** The content of the `mimetype` file. */
  const MimetypeText: string := "application/epub+zip"

  /** `stylesheet.css`; its rules carry no logic of the model. */
  const Stylesheet: string :=
    "body{\n    margin:10px;\n    font-size: 1.0em;\n}\n"
    + "ul,li{list-style-type:none;margin:0;padding:0;}\n\n"
    + "p{text-indent:2em; line-height:1.5em; margin-top:0; margin-bottom:1.5em;}\n\n"
    + ".catalog{line-height:2.5em;font-size: 0.8em;}\n"
    + "li{border-bottom: 1px solid #D5D5D5;}\n"
    + "h1{font-size:1.6em; font-weight:bold;}\n\n"
    + "h2 {\n    display: block;\n    font-size: 1.2em;\n    font-weight: bold;\n"
    + "    margin-bottom: 0.83em;\n    margin-left: 0;\n    margin-right: 0;\n    margin-top: 1em;\n}\n\n"
    + ".mbppagebreak {\n    display: block;\n    margin-bottom: 0;\n    margin-left: 0;\n"
    + "    margin-right: 0;\n    margin-top: 0 }\n"
    + "a {\n    color: inherit;\n    text-decoration: none;\n    cursor: default\n    }\n"
    + "a[href] {\n    color: blue;\n    text-decoration: none;\n    cursor: pointer\n    }\n\n"
    + ".italic {\n    font-style: italic\n    }"

  /** The fixed opening of `page.xhtml`, through the opening `<div>`. */
  const PageOpening: string :=
    XmlDeclaration + XhtmlDoctype + HtmlOpen
    + "    <head>\n"
    + "        <meta http-equiv=\"Content-Type\" content=\"text/html; charset=UTF-8\"/>\n"
    + "        <title>书籍信息</title>\n"
    + "        <style type=\"text/css\" title=\"override_css\">\n"
    + "            @page {padding: 0pt; margin:0pt}\n"
    + "            body { text-align: left; padding:0pt; margin: 0pt;font-size: 1.0em}\n"
    + "            ul,li{list-style-type:none;margin:0;padding:0;line-height: 1.5em;font-size: 1.0em}\n"
    + "            h1{font-size:1.5em}\n"
    + "            h2 {font-size: 1.2em}\n"
    + "\t\t.copyright{color:#646464}\n"
    + "        </style>\n"
    + "    </head>\n"
    + "    <body>\n"
    + "        <div>\n"

  /** The fixed closing of `page.xhtml`, after the introduction. */
  const PageClosing: string :=
    "            <li><br/></li>\n"
    + "            <li class=\"copyright\">Epub is created by <b>epubook</b></li>\n"
    + "            <li class=\"copyright\">github: [<b><a href=\"https://github.com/JintaoLee-Roger/epubook\" target=\"_blank\">JintaoLee-Roger/crawler</a></b>]</li>\n"
    + "        </ul>\n"
    + "        </div>\n"
    + "    </body>\n"
    + "</html>"

  /** `page.xhtml`, the information page: title, author line and the
      introduction, interpolated without escaping. */
  function PageText(b: Book): string
  {
    PageOpening
    + "            <h1>" + b.title + "</h1>\n"
    + "            <h2>作者：" + AuthorLine(b.authors) + "</h2>\n"
    + "        <ul><li><b>内容简介：</b></li>\n"
    + "            <li>" + b.intro + "</li>\n"
    + PageClosing
  }

  /** The head of `toc.ncx`, through the opening `<navMap>`. */
  function NcxHead(b: Book): string
  {
    "<?xml version='1.0' encoding='utf-8'?>\n"
    + "<ncx xmlns=\"http://www.daisy.org/z3986/2005/ncx/\" version=\"2005-1\">\n"
    + "<head>\n"
    + "    <meta content=\"epubook:000000\" name=\"dtb:uid\"/>\n"
    + "    <meta content=\"2\" name=\"dtb:depth\"/>\n"
    + "    <meta content=\"epubook [https://github.com/JintaoLee-Roger/crawler]\" name=\"dtb:generator\"/>\n"
    + "    <meta content=\"0\" name=\"dtb:totalPageCount\"/>\n"
    + "    <meta content=\"0\" name=\"dtb:maxPageNumber\"/>\n"
    + "</head>\n"
    + "<docTitle>\n"
    + "    <text>" + b.title + "</text>\n"
    + "</docTitle>\n"
    + "<docAuthor>\n"
    + "    <text>" + AuthorLine(b.authors) + "</text>\n"
    + "</docAuthor>\n"
    + "<navMap>\n"
  }

  /** The head of `catalog.xhtml`, through the opening `<ul>`. */
  const CatalogHead: string :=
    XhtmlOpening
    + "    <title>目录</title>\n"
    + StyledBodyOpening
    + "    <h1>目录<br/>Content</h1>\n"
    + "    <ul>\n"

  // ---------------------------------------------------------------------
  // The OPF head, kept as lines so that its optional line can be spoken of

  const OpfPreamble: string :=
    "<?xml version='1.0' encoding='utf-8'?>\n"
    + "<package xmlns=\"http://www.idpf.org/2007/opf\" xmlns:dc=\"http://purl.org/dc/elements/1.1/\" unique-identifier=\"bookid\" version=\"2.0\">\n"
    + "<metadata xmlns:dc=\"http://purl.org/dc/elements/1.1/\" xmlns:opf=\"http://www.idpf.org/2007/opf\">\n"

  /** The language line is a literal: the book's `lang` never reaches it. */
  const OpfFixedMetadata: string :=
    "    <dc:language>zh-cn</dc:language>\n"
    + "    <dc:date>2020-05-14T12:42:30+08:00</dc:date>\n"
    + "    <dc:contributor>Roger Lee</dc:contributor>\n"
    + "    <dc:publisher>epubook</dc:publisher>\n"
    + "    <dc:identifier id=\"bookid\">epubook:000000</dc:identifier>\n"

  const CoverMetaLine: string := "    <meta name=\"cover\" content=\"cover-image\"/>\n"
  const OpfHeadClose: string := "</metadata>\n\n<manifest>\n"

  function OpfHeadLines(b: Book): seq<string>
  {
    [ OpfPreamble,
      "    <dc:title>" + b.title + "</dc:title>\n",
      "    <dc:creator>" + AuthorLine(b.authors) + "</dc:creator>\n",
      "    <dc:description>" + b.title + "</dc:description>\n",
      OpfFixedMetadata ]
    + (if b.cover.Some? then [CoverMetaLine] else [])
    + [OpfHeadClose]
  }

  /** The head of `content.opf`, through the opening `<manifest>`. */
  function OpfHead(b: Book): string
  {
    Concat(OpfHeadLines(b))
  }

  /** The OPF head carries the cover `<meta>` line exactly when a cover is
      set. */
  lemma CoverMetaExactlyWhenCover(b: Book)
    ensures CoverMetaLine in OpfHeadLines(b) <==> b.cover.Some?
  {
    var lines := OpfHeadLines(b);
    assert CoverMetaLine[5] == 'm';
    if b.cover.None? {
      forall i | 0 <= i < |lines|
        ensures lines[i] != CoverMetaLine
      {
        assert lines[i][5] != 'm';
      }
    }
  }

  /** The language setting reaches none of the documents written from the
      metadata. */
  lemma LanguageNeverWritten(b: Book, lang: string)
    ensures OpfHead(SetLanguage(b, lang)) == OpfHead(b)
    ensures NcxHead(SetLanguage(b, lang)) == NcxHead(b)
    ensures PageText(SetLanguage(b, lang)) == PageText(b)
  {
  }

  /** The three documents that show authors depend on them only through the
      shared display rule: a book without authors reads exactly like one
      whose sole author is named "Unknow". */
  lemma NoAuthorsReadsAsUnknow(b: Book)
    requires b.authors == []
    ensures OpfHead(AddAuthor(b, Anonymous)) == OpfHead(b)
    ensures NcxHead(AddAuthor(b, Anonymous)) == NcxHead(b)
    ensures PageText(AddAuthor(b, Anonymous)) == PageText(b)
  {
    AuthorLineAddAuthor(b, Anonymous);
  }
}

=== FILE: results.dfy ===
/** Failure-carrying values shared by every module of the model.

    The program reports a failure either by printing a message and
    terminating the process, or by letting a Python exception escape. Both
    become an `Err` carrying one of the `Error` cases below. */
module Results {

  datatype Option<+T> = None | Some(value: T)

  /** Why an operation failed. */
  datatype Error =
    | NotFound(path: string)        // a file the operation reads does not exist
    | NoSuffix(name: string)        // an image name without any '.' (IndexError)
    | EmptyDirectory(name: string)  // a sub-directory with no child (IndexError)

  datatype Result<+T> = Ok(value: T) | Err(error: Error)
}

=== FILE: strings.dfy ===
/** The handful of Python string operations the program relies on:
    `str.join`, `str.split` with a one-character separator, the tail of
    `os.path.split`, and the decimal rendering of a natural number by an
    f-string. Strings are sequences of characters. */
module Strings {

  /** The parts written one after the other, as a sequence of `write` calls
      to the same file produces them. */
  function Concat(parts: seq<string>): string
  {
    if parts == [] then "" else parts[0] + Concat(parts[1..])
  }

  /** Writing two runs of parts is writing their concatenation. */
  lemma {:induction false} ConcatAppend(a: seq<string>, b: seq<string>)
    ensures Concat(a + b) == Concat(a) + Concat(b)
  {
    if a == [] {
      assert a + b == b;
    } else {
      assert (a + b)[1..] == a[1..] + b;
      ConcatAppend(a[1..], b);
    }
  }

  /** Python's `sep.join(parts)`. */
  function Join(sep: string, parts: seq<string>): string
  {
    if parts == [] then ""
    else if |parts| == 1 then parts[0]
    else parts[0] + sep + Join(sep, parts[1..])
  }

  /** Joining one more part puts exactly one separator before it. */
  lemma {:induction false} JoinSnoc(sep: string, parts: seq<string>, x: string)
    requires parts != []
    ensures Join(sep, parts + [x]) == Join(sep, parts) + sep + x
  {
    if |parts| == 1 {
      assert (parts + [x])[1..] == [x];
    } else {
      assert (parts + [x])[1..] == parts[1..] + [x];
      JoinSnoc(sep, parts[1..], x);
    }
  }

  /** Python's `s.split(c)` for a one-character separator `c`: the pieces
      between consecutive occurrences of `c`, empty pieces included. There is
      always one piece more than there are separators, and no piece contains
      the separator. */
  function Split(s: string, c: char): (r: seq<string>)
    ensures |r| == multiset(s)[c] + 1
    ensures forall i :: 0 <= i < |r| ==> c !in r[i]
    decreases |s|
  {
    if s == [] then [""]
    else
      assert s == [s[0]] + s[1..];
      var rest := Split(s[1..], c);
      if s[0] == c then [""] + rest
      else [[s[0]] + rest[0]] + rest[1..]
  }

  /** Joining a part in front of a non-empty run puts one separator between. */
  lemma JoinCons(sep: string, x: string, rest: seq<string>)
    requires rest != []
    ensures Join(sep, [x] + rest) == x + sep + Join(sep, rest)
  {
    assert ([x] + rest)[1..] == rest;
  }

  /** Prefixing the first part prefixes the whole joined text. */
  lemma JoinExtendFirst(sep: string, a: string, rest: seq<string>)
    requires rest != []
    ensures Join(sep, [a + rest[0]] + rest[1..]) == a + Join(sep, rest)
  {
    if |rest| > 1 {
      JoinCons(sep, a + rest[0], rest[1..]);
      JoinCons(sep, rest[0], rest[1..]);
      assert rest == [rest[0]] + rest[1..];
    } else {
      assert [a + rest[0]] + rest[1..] == [a + rest[0]];
    }
  }

  /** Splitting loses nothing: joining the pieces back with the separator
      gives the original string. */
  lemma {:induction false} SplitJoin(s: string, c: char)
    ensures Join([c], Split(s, c)) == s
    decreases |s|
  {
    if s != [] {
      var rest := Split(s[1..], c);
      SplitJoin(s[1..], c);
      if s[0] == c {
        JoinCons([c], "", rest);
      } else {
        JoinExtendFirst([c], [s[0]], rest);
      }
      assert s == [s[0]] + s[1..];
    }
  }

  /** The longest prefix of `s` free of `c`; the same as the first field of
      `s.split(c)`. */
  function TakeUntil(s: string, c: char): (r: string)
    ensures r <= s && c !in r
    ensures |r| < |s| ==> s[|r|] == c
  {
    if s == [] || s[0] == c then "" else [s[0]] + TakeUntil(s[1..], c)
  }

  /** A prefix free of `c` that is followed by `c` is exactly what
      `TakeUntil` returns. */
  lemma TakeUntilStops(a: string, b: string, c: char)
    requires c !in a && b != [] && b[0] == c
    ensures TakeUntil(a + b, c) == a
  {
    assert (a + b)[|a|] == c;
  }

  /** The first field of `split` is the prefix up to the first separator. */
  lemma {:induction false} SplitFirstField(s: string, c: char)
    ensures Split(s, c)[0] == TakeUntil(s, c)
    decreases |s|
  {
    if s != [] && s[0] != c {
      SplitFirstField(s[1..], c);
    }
  }

  /** The part of `s` after its last `c` (all of `s` when it has none): the
      tail component of `os.path.split` when `c` is '/'. */
  function AfterLast(s: string, c: char): (r: string)
    ensures c !in r
    ensures |r| <= |s| && s[|s| - |r|..] == r
    ensures |r| < |s| ==> s[|s| - |r| - 1] == c
  {
    if s == [] || s[|s| - 1] == c then ""
    else
      var r := AfterLast(s[..|s| - 1], c);
      assert s[..|s| - 1][|s| - 1 - |r|..] + [s[|s| - 1]] == s[|s| - |r| - 1..];
      r + [s[|s| - 1]]
  }

  predicate IsDigit(ch: char) {
    '0' <= ch <= '9'
  }

  function DigitChar(d: nat): (ch: char)
    requires d < 10
    ensures IsDigit(ch)
  {
    (48 + d) as char
  }

  /** The decimal text of `n`, as Python's `str(n)` writes it. */
  function NatToString(n: nat): (r: string)
    ensures r != [] && forall i :: 0 <= i < |r| ==> IsDigit(r[i])
  {
    if n < 10 then [DigitChar(n)] else NatToString(n / 10) + [DigitChar(n % 10)]
  }

  /** The number a string of decimal digits denotes. */
  function DecimalValue(s: string): nat
    requires forall i :: 0 <= i < |s| ==> IsDigit(s[i])
  {
    if s == [] then 0
    else
      assert IsDigit(s[|s| - 1]);
      DecimalValue(s[..|s| - 1]) * 10 + (s[|s| - 1] as int - '0' as int)
  }

  /** Reading the decimal text back gives the number. */
  lemma {:induction false} DecimalRoundTrip(n: nat)
    ensures DecimalValue(NatToString(n)) == n
  {
    if n >= 10 {
      var r := NatToString(n);
      assert r[..|r| - 1] == NatToString(n / 10);
      DecimalRoundTrip(n / 10);
    }
  }

  /** Different numbers are written differently. */
  lemma NatToStringInjective(m: nat, n: nat)
    requires m != n
    ensures NatToString(m) != NatToString(n)
  {
    DecimalRoundTrip(m);
    DecimalRoundTrip(n);
  }
}
